=== FILE: README.md ===
# rx in Dafny: lifelines, subjects, transforms and the observer protocol

A model of the core of **rx**, a push-based reactive-stream library for Rust. An
*observable* pushes values to an *observer*: `on_next(item)` for each item, then at most one
`on_completed()` or `on_error(error)`. The terminal methods take the observer by value, so
nothing can be called on it after them. Here an observer is the **trace** of calls it has
received (`Protocol.Event<T, E> = Next(item) | Completed | Error(error)`). A trace is
*well-formed* when only its last call may be terminal. It is *open* while it holds items only,
which means the observer still exists. The precondition `Open` of `Protocol.Deliver` is the
trait's "terminal methods consume `self`" rule.

The model has five modules:

- **Lifeline** (`lifeline.dfy`). This models `lifeline::new`, `Lifeline` and `Owner`: a
  shared slot with decoupled lifetime and ownership.
  - The class `Cell` holds the slot (`value`), whether the lifeline handle still exists
    (`alive`), and whether the owner handle has not yet been consumed by `take`
    (`ownerHeld`).
  - Each method is specified by a pure function on the value `Slot` (`Fresh`, `Mutated`,
    `Taken`, `Released`). The lemmas about replaying owner operations are proved on those
    functions.
  - `Release` stands for dropping the lifeline handle.
- **Subjects** (`subject.dfy`). This models the multicast `Subject`. It holds an ordered list
  of registrations. Each registration is the owner side of a `Cell` whose value is the
  observer's received trace. The subscriber holds the same cell as its `SubjectSubscription`.
  - `on_next` runs the two loops of the source: deliver and record dead indices, then remove
    them from the highest down.
  - `on_completed` and `on_error` drain the list. They return the final traces of the
    observers they consumed.
  - `consumed` stands for Rust moving the subject into a terminal method.
- **Transform** (`transform.dfy`).
  - `map` and `map_error` are trace-to-trace functions.
  - `continue_with` has the trace function `ContinueWithTrace` and an imperative model: the
    adapter class `ContinueWithObserver`, and the `subscribe` loop that feeds it a source's
    calls. It stores the second subscription through a `Lifeline.Cell`.
- **Observables** (`observables.dfy`).
  - `Observable::subscribe` on a cold source. The class `ColdSource` holds a fixed trace and
    counts its subscriptions.
  - The five subscription helpers are functions from the source's calls to the callback calls
    made. The outcome records whether the helper panicked.
- **Observers** (`observers.dfy`). The closure observer: each call on it becomes one call of
  an `FnMut(Option<Result<T, E>>)`.

The scenario methods (`PushInOrder`, `ClonesOncePerObserver`, `MapDoubles`,
`SliceThroughResult`, ...) restate the repository's tests as proved scenarios. In them the
subscription is kept alive for as long as the scenario runs.

## Model

| member | source | states |
|---|---|---|
| Protocol.Deliver | src/observer.rs:8-17 | a call on an observer that has only received items is well-formed; afterwards it stays callable exactly when the call was `on_next` |
| Protocol.Delivered | src/observable.rs:49-55 | what an observer receives is well-formed and a prefix of the attempted calls, whole when they are well-formed, ending at the first terminal call |
| Protocol.FromItems | src/observable.rs:20-33 | a finite source makes one item call per element, in order, then exactly one completion |
| Protocol.WellFormedShape | src/observable.rs:26-37 | a well-formed trace is its items followed by at most one terminal call; no item follows an error |
| Protocol.OpenOrTerminated | src/observable.rs:49-55 | a well-formed trace is either still open or terminated, never both |
| Lifeline.Fresh | src/lifeline.rs:60-66 | `new(v)` makes a live pair whose owner finds `Some(v)` |
| Lifeline.Mutated | src/lifeline.rs:41-48 | `with_mut_value` replaces the value by `action(v)` when the owner can reach it, and changes nothing otherwise |
| Lifeline.Taken | src/lifeline.rs:50-57 | `take` empties the slot and consumes the owner; afterwards the owner finds nothing |
| Lifeline.Released | src/lifeline.rs:8-14 | dropping the lifeline drops the stored value; the owner can no longer reach it |
| Lifeline.DeadStaysSilent | src/lifeline.rs:31-57 | once the lifeline is gone, no owner action runs, the state never changes and `take` returns nothing |
| Lifeline.ReleaseSilencesOwner | src/lifeline.rs:10-14 | after a release, every later owner operation is a silent no-op |
| Lifeline.Seen | src/lifeline.rs:33-48 | each owner operation in a sequence finds what the owner could reach after the operations before it |
| Lifeline.MutationsAreObserved | src/lifeline.rs:33-48 | while alive, each action runs exactly once, on the value left by the mutations before it, and the final value is the result of all of them |
| Lifeline.TakeAfterNew | src/lifeline.rs:51-66 | after `new(v)` and any reads, `take` finds `v`, and nothing after the take |
| Lifeline.ReleaseAfterTake | src/lifeline.rs:13-14 | once the owner has taken the value, dropping the lifeline changes nothing the owner can see |
| Lifeline.Cell.constructor | src/lifeline.rs:61-66 | the new cell is in the state `Fresh(v)` |
| Lifeline.Cell.WithValue | src/lifeline.rs:33-39 | the action runs once on the stored value exactly when the owner can reach it; nothing is modified |
| Lifeline.Cell.WithMutValue | src/lifeline.rs:42-48 | the new state is `Mutated(old state, action)` |
| Lifeline.Cell.WithMutValueOr | src/subject.rs:56-62 | runs the action when `with_mut_value` would and reports whether it ran; the new state is `Mutated` |
| Lifeline.Cell.Take | src/lifeline.rs:51-57 | returns what the owner could reach and leaves the state `Taken`; it needs the unconsumed owner |
| Lifeline.Cell.Release | src/lifeline.rs:19-23 | the new state is `Released(old state)` |
| Lifeline.ReadAfterNew | src/lifeline.rs:33-39 | right after `new(v)`, `with_value` runs its action with `v` |
| Lifeline.TakeBeforeAndAfterRelease | src/lifeline.rs:51-57 | `take` on a fresh pair returns `Some(v)`; after the lifeline is dropped it returns `None` |
| Lifeline.MutateThenTake | src/lifeline.rs:42-57 | a mutation is what both a later read and `take` observe |
| Observers.FnArg | src/observer.rs:28-39 | `Some(Ok(item))`, `None`, `Some(Err(error))` per call; the call is recovered from the argument |
| Observers.FnCalls | src/observer.rs:19-27 | one closure call per observer call, in order, with `FnArg` of it |
| Observers.FnCallsInjective | src/observer.rs:21-27 | different call sequences give different closure call sequences |
| Observers.FnCallsEndAtTerminal | src/observer.rs:25-27 | after `None` or `Some(Err(_))` the closure is never called again |
| Observers.FnCallsOfFinite | src/observer.rs:21-39 | `k` items then completion give `k` calls `Some(Ok(x))` in order, then exactly one `None` |
| Observables.SubscribeNext | src/observable.rs:66-81 | the item callback sees exactly the delivered items; the helper panics exactly when the source fails |
| Observables.SubscribeCompleted | src/observable.rs:83-103 | items and the completion reach their callbacks; on a failure the helper panics after the items |
| Observables.SubscribeError | src/observable.rs:105-125 | every delivered call reaches its own callback and the helper never panics |
| Observables.OptionArg | src/observable.rs:131-132 | the option callback gets `Some(x)` exactly for an item `x`, and `None` for the completion |
| Observables.SubscribeOption | src/observable.rs:127-149 | `Some(x)` per item and `None` on completion, in order; panics exactly on failure |
| Observables.ResultArg | src/observable.rs:155-157 | `Ok(Some(x))` for an item, `Ok(None)` exactly for the completion, `Err(e)` exactly for an error `e` |
| Observables.SubscribeResult | src/observable.rs:151-171 | `Ok(Some(x))`, `Ok(None)` and `Err(e)` per delivered call, in order; never panics |
| Observables.ErrorHandlingSplit | src/observable.rs:66-171 | the helpers without an error handler panic exactly on failure; the ones with a handler never panic |
| Observables.ErrorRoutedOnce | src/observable.rs:105-112 | the error callback is called at most once, and nothing is called after it |
| Observables.OptionNoneIsLast | src/observable.rs:135-136 | after `None` the option callback is never called again |
| Observables.ResultTerminalIsLast | src/observable.rs:159-160 | after `Ok(None)` or `Err(e)` the result callback is never called again |
| Observables.FiniteOptionCalls | src/observable.rs:127-149 | for a finite source, `subscribe_option` returns without panicking and calls `Some(x)` at the index of each item, then `None` once, last |
| Observables.OptionOfFinite | src/observable.rs:127-149 | a finite source `[a, b, ...]` gives `[Some(a), Some(b), ..., None]` |
| Observables.FiniteResultCalls | src/observable.rs:151-171 | for a finite source, `subscribe_result` calls `Ok(Some(x))` at the index of each item, then `Ok(None)` once, last |
| Observables.ResultOfFinite | src/observable.rs:151-171 | a finite source gives `[Ok(Some(a)), ..., Ok(None)]` |
| Observables.ColdSource.constructor | src/observable.rs:49-55 | a source's calls are well-formed |
| Observables.ColdSource.Subscribe | src/observable.rs:49-64 | one more subscription; the observer receives the source's calls |
| Observables.SubscribeNextTo | src/observable.rs:73-81 | `subscribe_next` subscribes the source once and gives `SubscribeNext` of its calls |
| Observables.SubscribeOptionTo | src/observable.rs:141-149 | `subscribe_option` subscribes the source once and gives `SubscribeOption` of its calls |
| Observables.SubscribeResultTo | src/observable.rs:163-171 | `subscribe_result` subscribes the source once and gives `SubscribeResult` of its calls |
| Observables.SliceResultCalls | tests/rx.rs:180-187 | any four-item slice through `subscribe_result` gives its four items as `Ok(Some(_))` in order, then `Ok(None)` |
| Observables.SliceThroughResult | tests/rx.rs:180-187 | the slice `[2, 3, 5, 7]` gives `Ok(Some(2))`, ..., `Ok(Some(7))`, `Ok(None)` |
| Observables.ErrorThroughNext | tests/rx.rs:93-101 | an `Err` source through `subscribe_next` panics before any item call |
| Transform.MapEvent | src/transform.rs:29-39 | `MapObserver` forwards the same kind of call, with `f` applied to an item and the error unchanged |
| Transform.MapTrace | src/transform.rs:29-39 | one downstream call per source call, in order, with `f` applied to items only |
| Transform.MapKeepsShape | src/transform.rs:33-39 | map keeps well-formedness, openness and completion, and forwards the error unchanged |
| Transform.MapItems | src/transform.rs:29-31 | the mapped items are `f` of the source items, in order |
| Transform.MapOfFinite | src/transform.rs:29-39 | a finite source `xs` under `map(f)` is the finite source `f(xs)` |
| Transform.MapFusion | src/transform.rs:29-31 | mapping by `f` then `g` equals mapping once by their composition |
| Transform.MapErrorEvent | src/transform.rs:94-104 | `MapErrorObserver` forwards the same kind of call, with the item unchanged and `g` applied to the error |
| Transform.MapErrorTrace | src/transform.rs:94-104 | one downstream call per source call, with `g` applied to the error only |
| Transform.MapErrorForwards | src/transform.rs:94-104 | items and completion unchanged, an error `e` becomes `g(e)` at the same place, well-formedness kept |
| Transform.ContinueWithTrace | src/transform.rs:175-189 | what the continuation adapter forwards: a source that only made item calls is forwarded unchanged, and nothing beyond the source's and `next`'s calls is produced |
| Transform.NextSubscriptions | src/transform.rs:179-181 | `next` is subscribed at most once, and for a well-formed source exactly when the source completes |
| Transform.ContinueWithAfterItems | src/transform.rs:175-177 | items before the continuation point are forwarded unchanged |
| Transform.ContinueWithStep | src/transform.rs:175-189 | while the source is open, one more item is passed through, a completion is replaced by all of `next`'s calls, and an error is passed through and ends the trace |
| Transform.ContinueWithShape | src/transform.rs:175-189 | on completion, the source items followed by all of `next`'s calls; otherwise exactly the source's calls; well-formed |
| Transform.MapSubscribe | src/transform.rs:65-75 | subscribes the source exactly once, returns its subscription, and the observer receives `MapTrace` of its calls |
| Transform.MapErrorSubscribe | src/transform.rs:130-145 | subscribes the source exactly once, returns its subscription, and the observer receives `MapErrorTrace` of its calls |
| Transform.MapDoubles | tests/transform.rs:13-20 | `[2, 3, 5, 7, 11, 13]` under `x * 2` gives `[4, 6, 10, 14, 22, 26]` |
| Transform.ContinueWithObserver.constructor | src/transform.rs:216-221 | the adapter starts with nothing forwarded, holding `next` and the owner of the slot |
| Transform.ContinueWithObserver.OnNext | src/transform.rs:175-177 | the item is forwarded unchanged |
| Transform.ContinueWithObserver.OnCompleted | src/transform.rs:179-185 | `next` is subscribed exactly once with the downstream observer, which receives its calls; the slot stores that subscription only if its lifeline is held |
| Transform.ContinueWithObserver.OnError | src/transform.rs:187-189 | the error is forwarded unchanged and the adapter is consumed |
| Transform.ContinueWithSubscribe | src/transform.rs:214-227 | only the source is subscribed, once; the slot starts at `None`; the observer receives `ContinueWithTrace`; `next` is subscribed once if the source completes and never otherwise, and the slot then holds that subscription |
| Transform.ReleaseContinueWith | src/transform.rs:148-160 | dropping the combined subscription releases the slot's lifeline |
| Transform.ContinueWithSources | src/observable.rs:185-194 | two finite sources: `a`'s items then `b` with one subscription of `b` if `a` completes, else `a` unchanged and `b` never subscribed |
| Transform.CompletionAfterRelease | src/transform.rs:179-185 | after the combined subscription is dropped, a completion still subscribes `next` once but stores nothing |
| Subjects.RemoveAt | src/subject.rs:66-68 | `Vec::remove(i)` shifts the later elements down by one |
| Subjects.DeadIndices | src/subject.rs:53-64 | `remove_indices` holds in-bounds positions of dead registrations only, no more of them than registrations |
| Subjects.Liveness | src/subject.rs:56-61 | a registration is live exactly when its owner can still reach the observer |
| Subjects.DeadIndicesExact | src/subject.rs:53-64 | the recorded dead indices are strictly increasing, in bounds, and exactly the dead positions |
| Subjects.KeepCount | src/subject.rs:55-64 | live registrations plus recorded dead indices equal the registrations scanned |
| Subjects.LiveBetween | src/subject.rs:53-64 | every registration between two consecutive recorded dead indices is live |
| Subjects.RemoveStep | src/subject.rs:66-68 | each removal, highest index first, is in bounds and extends the filtered suffix |
| Subjects.RemoveDone | src/subject.rs:66-68 | when the removals are done, the list is the live registrations in their old order |
| Subjects.Terminate | src/subject.rs:71-87 | a terminal broadcast produces at most one trace per registration, each ending with the terminal call |
| Subjects.TerminateDeliversOnce | src/subject.rs:71-87 | a terminal broadcast reaches exactly the live registrations, in order, each with one terminal call, giving well-formed traces |
| Subjects.TerminalCall | src/subject.rs:73-76 | a registration still holding its observer gets exactly one terminal call, its trace followed by the terminal event; a released one gets none |
| Subjects.TerminateMatchesLive | src/subject.rs:72-77 | the terminal calls go to the live registrations and no others, one each, in registration order |
| Subjects.TerminateWellFormed | src/subject.rs:71-87 | when every registration is held by the subject and each live observer has received only items, every trace after the terminal call is well-formed, terminated and ends with that call |
| Subjects.Subject.constructor | src/subject.rs:33-37 | a new subject has no registrations |
| Subjects.Subject.Subscribe | src/subject.rs:95-103 | appends one fresh live registration at the end holding the observer unchanged; earlier registrations untouched |
| Subjects.Subject.OnNext | src/subject.rs:52-69 | each live registration receives the item once, dead ones nothing, and the deliveries happen in registration order; the list becomes the live registrations in their old order; one clone per delivery |
| Subjects.Subject.DeliverNext | src/subject.rs:53-64 | the first loop logs each registration at the moment the item is delivered to it; the log ends as exactly the registrations live at the start, in registration order, with one clone each; it records exactly the dead indices; each registration's state becomes its start state with the item appended, unchanged when dead |
| Subjects.Subject.Prune | src/subject.rs:66-68 | removing the recorded indices from the highest down leaves the live registrations in order |
| Subjects.Subject.OnCompleted | src/subject.rs:71-78 | the list is drained and the subject consumed; each live observer receives one completion, dead ones nothing |
| Subjects.Subject.OnError | src/subject.rs:80-87 | the list is drained and the subject consumed; each live observer receives one `on_error` with the error, dead ones nothing |
| Subjects.Subject.Drain | src/subject.rs:72-77 | every registration is taken, and its state becomes the taken form of its state at the start; each observer live at the start makes its terminal call, in registration order (`Terminate`); the list is left empty |
| Subjects.PushWithoutSubscribers | src/subject.rs:52-69 | `on_next` on a subject without registrations makes no clone and leaves it empty |
| Subjects.PushInOrder | tests/subject.rs:12-26 | a new subscriber receives nothing, and after each push it has received exactly the values pushed so far |
| Subjects.ClonesOncePerObserver | tests/rx.rs:255-276 | pushing one item to `n` live subscribers makes exactly `n` clones |
| Subjects.TwoSubscribersAfterPush | src/subject.rs:52-69 | after two subscriptions and one push, both observers have received exactly that item and both stay registered |
| Subjects.ReleaseStopsDelivery | src/subject.rs:56-61 | after one subscription is released its observer receives nothing more and is pruned, while the other keeps receiving |
| Subjects.CompleteOneSubscriber | tests/subject.rs:28-42 | the only subscriber receives exactly one completion |
| Subjects.FailOneSubscriber | tests/subject.rs:44-59 | `on_error(41)` gives the only subscriber exactly one `Error(41)` |

## Left out

- Rust memory mechanics are not modelled. The `Rc`/`Weak` counts, `RefCell` borrows, `Box` and `BoxedObserver` type erasure, `PhantomData` and the empty `Drop` impls become explicit fields. Those fields are `alive` (the lifeline handle exists) and `ownerHeld` (the owner has not been consumed), plus a `Release` method for dropping a handle.
- `with_mut_value_or` is called at src/subject.rs:56 but is not defined in the lifeline.rs this model follows. `Lifeline.Cell.WithMutValueOr` gives it the behaviour its call site implies: the action when `with_mut_value` would run it, the fallback otherwise.
- The helper observers `NextObserver`, `CompletedObserver`, `ErrorObserver`, `OptionObserver` and `ResultObserver` are not part of this model. Their behaviour follows the doc comments of the helpers in src/observable.rs.
- A panic is a result value (`Observables.Outcome.Panicked`). Unwinding, and the debug formatting of the error it prints, are not modelled.
- Callbacks and observers are not run. A side-effecting callback is the sequence of calls it receives. `f` and `g` are Dafny functions, and the `Fn`/`FnMut`/`FnOnce` distinctions and lifetimes are not modelled.
- `Clone` is a counter of copies (`Subjects.Subject.OnNext`'s `clones`). No value is actually cloned.
- The container sources (slices, `Option`, `Result`) and `Never` (src/generate.rs) are given traces in a `ColdSource`. src/generate.rs and src/lib.rs are not part of this model.
- Delivery timing is not modelled: a cold source makes all its calls inside `subscribe`. A hot source feeding a combinator appears only where a test needs it: `Transform.CompletionAfterRelease` drives the adapter directly after its subscription is dropped.
- Dropping a cold source's subscription has no effect in the model, because such a source has already finished when `subscribe` returns.
- `Subject::observable` and `SubjectObservable` are a borrowing proxy. They are folded into `Subjects.Subject.Subscribe`.
- `Subjects.Subject.OnNext` is split into `DeliverNext` and `Prune`, its two loops. `OnCompleted` and `OnError` share their drain loop in `Drain`.
- Subject scenarios keep their subscriptions for as long as they run. Five test call sites discard the returned subscription at once: tests/subject.rs:16, tests/subject.rs:32, tests/subject.rs:48, tests/rx.rs:265 and tests/rx.rs:266. Their closures also borrow locals, which the `'static` bound of src/subject.rs:95 does not accept. Under src/subject.rs and src/lifeline.rs, dropping a subscription drops its observer. Those tests' subscribers would then receive nothing, and tests/rx.rs:274 would count 1 clone, not 3. `Subjects.PushInOrder`, `Subjects.ClonesOncePerObserver`, `Subjects.CompleteOneSubscriber` and `Subjects.FailOneSubscriber` therefore keep the subscriptions that their tests drop, and model the behaviour the tests assert.
- A subject's registration is the owner side of a `Lifeline.Cell`. The subscriber holds the same cell, so releasing it is `Lifeline.Cell.Release` on that cell.

=== FILE: lifeline.dfy ===
/**
  Decoupled lifetime and ownership (src/lifeline.rs).

  `lifeline::new(v)` makes a pair of handles over one shared slot holding `Some(v)`. The
  lifeline keeps the slot alive; dropping it drops the stored value. The owner may read,
  mutate or take the value; each of these does nothing once the lifeline is gone, and
  `take` empties the slot and consumes the owner.

  `Slot` is the state of one pair as a value, with one function per operation; `Cell` is
  the shared storage as an object whose methods are specified by those functions.
*/
module Lifeline {
  import opened Wrappers

  /**
    The state of a lifeline/owner pair: `alive` while the lifeline handle exists (the
    strong reference), `value` the shared slot, `ownerHeld` while the owner handle has not
    been consumed by `take`.
  */
  datatype Slot<T> = Slot(alive: bool, value: Option<T>, ownerHeld: bool)
  {
    /** Dropping the lifeline drops the slot with the value in it. */
    predicate Valid()
    {
      !alive ==> value == None
    }
  }

  /** What the owner finds: the weak reference upgrades only while the lifeline exists. */
  function Access<T>(s: Slot<T>): Option<T>
  {
    if s.alive then s.value else None
  }

  /** The pair made by `lifeline::new(v)`. */
  function Fresh<T>(v: T): (s: Slot<T>)
    ensures s.Valid() && s.alive && s.ownerHeld
    ensures Access(s) == Some(v)
  {
    Slot(true, Some(v), true)
  }

  /** The state after `with_mut_value(action)`. */
  function Mutated<T>(s: Slot<T>, action: T -> T): (s': Slot<T>)
    ensures s'.alive == s.alive && s'.ownerHeld == s.ownerHeld
    ensures s.Valid() ==> s'.Valid()
    ensures Access(s).None? ==> s' == s
    ensures Access(s).Some? ==> Access(s') == Some(action(Access(s).value))
  {
    if s.alive then
      match s.value
      case Some(v) => s.(value := Some(action(v)))
      case None => s
    else s
  }

  /** The state after `take()`: the slot is emptied and the owner is gone. */
  function Taken<T>(s: Slot<T>): (s': Slot<T>)
    ensures s.Valid() ==> s'.Valid()
    ensures !s'.ownerHeld && s'.alive == s.alive
    ensures Access(s') == None
  {
    if s.alive then s.(value := None, ownerHeld := false) else s.(ownerHeld := false)
  }

  /** The state after the lifeline is dropped: the stored value is dropped with it. */
  function Released<T>(s: Slot<T>): (s': Slot<T>)
    ensures s'.Valid() && !s'.alive && s'.ownerHeld == s.ownerHeld
    ensures Access(s') == None
  {
    s.(alive := false, value := None)
  }

  /** A non-consuming owner operation: `with_value` or `with_mut_value`. */
  datatype OwnerOp<!T> = Read | Mutate(action: T -> T)

  function Step<T>(s: Slot<T>, op: OwnerOp<T>): Slot<T>
  {
    match op
    case Read => s
    case Mutate(action) => Mutated(s, action)
  }

  /** The state after a sequence of owner operations. */
  function Final<T>(s: Slot<T>, ops: seq<OwnerOp<T>>): Slot<T>
    decreases |ops|
  {
    if ops == [] then s else Final(Step(s, ops[0]), ops[1..])
  }

  /**
    For each operation of `ops` in turn, the value its action was invoked with, or `None`
    when the action was not invoked at all.
  */
  function Seen<T>(s: Slot<T>, ops: seq<OwnerOp<T>>): (seen: seq<Option<T>>)
    ensures |seen| == |ops|
    ensures forall i :: 0 <= i < |ops| ==> seen[i] == Access(Final(s, ops[..i]))
    decreases |ops|
  {
    if ops == [] then []
    else
      assert forall i :: 0 < i <= |ops| ==> ops[..i][0] == ops[0] && ops[..i][1..] == ops[1..][..i - 1];
      [Access(s)] + Seen(Step(s, ops[0]), ops[1..])
  }

  /** The value after applying the mutations of `ops` to `v`, in order. */
  function Apply<T>(v: T, ops: seq<OwnerOp<T>>): T
  {
    if ops == [] then v
    else Apply(match ops[0] case Read => v case Mutate(action) => action(v), ops[1..])
  }

  /**
    Once the lifeline is gone, every later owner operation is a silent no-op: no action
    is invoked, `take` finds nothing, and the pair stays dead.
  */
  lemma {:induction false} DeadStaysSilent<T>(s: Slot<T>, ops: seq<OwnerOp<T>>)
    requires !s.alive
    ensures forall i :: 0 <= i < |ops| ==> Seen(s, ops)[i] == None
    ensures Final(s, ops) == s
    ensures Access(Taken(Final(s, ops))) == None && Access(Final(s, ops)) == None
    decreases |ops|
  {
    if ops != [] {
      DeadStaysSilent(Step(s, ops[0]), ops[1..]);
    }
  }

  /** Releasing the lifeline silences the owner for good, whatever the state before. */
  lemma ReleaseSilencesOwner<T>(s: Slot<T>, ops: seq<OwnerOp<T>>)
    ensures forall i :: 0 <= i < |ops| ==> Seen(Released(s), ops)[i] == None
    ensures Access(Final(Released(s), ops)) == None
  {
    DeadStaysSilent(Released(s), ops);
  }

  /**
    While the lifeline exists, every action is invoked exactly once, on the value left
    by the mutations before it, and the final value (what `take` returns) is the value
    after all of them.
  */
  lemma {:induction false} MutationsAreObserved<T>(s: Slot<T>, v: T, ops: seq<OwnerOp<T>>)
    requires Access(s) == Some(v)
    ensures forall i :: 0 <= i < |ops| ==> Seen(s, ops)[i] == Some(Apply(v, ops[..i]))
    ensures Access(Final(s, ops)) == Some(Apply(v, ops))
    ensures Final(s, ops).alive && Final(s, ops).ownerHeld == s.ownerHeld
    decreases |ops|
  {
    if ops != [] {
      var v' := match ops[0] case Read => v case Mutate(action) => action(v);
      MutationsAreObserved(Step(s, ops[0]), v', ops[1..]);
      forall i | 0 <= i < |ops| ensures Seen(s, ops)[i] == Some(Apply(v, ops[..i])) {
        if i > 0 {
          assert ops[..i][1..] == ops[1..][..i - 1];
        }
      }
    }
  }

  /** Right after `new(v)`, `take` returns `Some(v)` after any reads, and nothing afterwards. */
  lemma TakeAfterNew<T>(v: T, readCount: nat)
    ensures var ops := seq(readCount, i => Read);
      Access(Final(Fresh(v), ops)) == Some(v) && Access(Taken(Final(Fresh(v), ops))) == None
  {
    var ops: seq<OwnerOp<T>> := seq(readCount, i => Read);
    MutationsAreObserved(Fresh(v), v, ops);
    ApplyReads(v, ops);
  }

  lemma {:induction false} ApplyReads<T>(v: T, ops: seq<OwnerOp<T>>)
    requires forall i :: 0 <= i < |ops| ==> ops[i].Read?
    ensures Apply(v, ops) == v
  {
    if ops != [] {
      ApplyReads(v, ops[1..]);
    }
  }

  /** When the owner has already taken the value, dropping the lifeline changes nothing the owner side can see. */
  lemma ReleaseAfterTake<T>(s: Slot<T>)
    requires s.Valid()
    ensures Released(Taken(s)).value == Taken(s).value == None
    ensures Access(Released(Taken(s))) == Access(Taken(s))
  {
  }

  /**
    The storage shared by a lifeline and its owner. The lifeline handle is `alive` and
    `Release`; the owner handle is `ownerHeld`, `WithValue`, `WithMutValue` and `Take`.
  */
  class Cell<T> {
    var alive: bool
    var value: Option<T>
    var ownerHeld: bool

    function State(): Slot<T>
      reads this
    {
      Slot(alive, value, ownerHeld)
    }

    /** `lifeline::new(value)`. */
    constructor (v: T)
      ensures State() == Fresh(v)
    {
      alive, value, ownerHeld := true, Some(v), true;
    }

    /**
      `Owner::with_value`: invokes the action once on the stored value while the lifeline
      exists and the slot is full, otherwise not at all; `r` is what the action returned.
    */
    method WithValue<R>(action: T -> R) returns (r: Option<R>)
      requires ownerHeld
      ensures r.Some? <==> Access(State()).Some?
      ensures Access(State()).Some? ==> r == Some(action(Access(State()).value))
    {
      r := None;
      if alive {
        if value.Some? {
          r := Some(action(value.value));
        }
      }
    }

    /** `Owner::with_mut_value`: replaces the stored value by `action` of it, when there is one. */
    method WithMutValue(action: T -> T)
      requires ownerHeld
      modifies this
      ensures State() == Mutated(old(State()), action)
    {
      var _ := WithMutValueOr(action);
    }

    /**
      `with_mut_value_or(action, or_else)` as src/subject.rs calls it: runs `action` when
      `with_mut_value` would, and the fallback otherwise; `ran` says which ran.
    */
    method WithMutValueOr(action: T -> T) returns (ran: bool)
      requires ownerHeld
      modifies this
      ensures ran == old(Access(State())).Some?
      ensures State() == Mutated(old(State()), action)
    {
      ran := false;
      if alive {
        if value.Some? {
          value := Some(action(value.value));
          ran := true;
        }
      }
    }

    /** `Owner::take`: returns the stored value if the lifeline exists, empties the slot and consumes the owner. */
    method Take() returns (r: Option<T>)
      requires ownerHeld
      modifies this
      ensures r == Access(old(State()))
      ensures State() == Taken(old(State()))
    {
      if alive {
        r := value;
        value := None;
      } else {
        r := None;
      }
      ownerHeld := false;
    }

    /** Dropping the lifeline: the slot and the value in it are dropped. */
    method Release()
      requires alive
      modifies this
      ensures State() == Released(old(State()))
    {
      alive := false;
      value := None;
    }
  }

  /** Right after `new(v)`, `with_value` invokes its action exactly once, with `v`. */
  method ReadAfterNew<T>(v: T) returns (seen: Option<T>)
    ensures seen == Some(v)
  {
    var c := new Cell(v);
    seen := c.WithValue(x => x);
  }

  /** `take` on a fresh pair returns the value once; after the lifeline is dropped it would return nothing. */
  method TakeBeforeAndAfterRelease<T>(v: T) returns (first: Option<T>, late: Option<T>)
    ensures first == Some(v)
    ensures late == None
  {
    var c := new Cell(v);
    first := c.Take();
    c.Release();
    var d := new Cell(v);
    d.Release();
    late := d.Take();
  }

  /** A mutation is what a later read and `take` observe. */
  method MutateThenTake(v: int) returns (seen: Option<int>, taken: Option<int>)
    ensures seen == Some(v + 1) && taken == Some(v + 1)
  {
    var c := new Cell(v);
    c.WithMutValue(x => x + 1);
    seen := c.WithValue(x => x);
    taken := c.Take();
  }
}

=== FILE: observables.dfy ===
/**
  The Observable trait (src/observable.rs): `subscribe` and the subscription helpers that
  wrap plain callbacks into an observer.

  A helper's effect is the sequence of callback calls it makes, and whether it panics.
  Calls of the three handlers `on_next`, `on_completed` and `on_error` are recorded as the
  `Event` they correspond to. The helpers without an error handler (`subscribe_next`,
  `subscribe_completed`, `subscribe_option`) panic on an error; the others route it to the
  callback. Every helper sees `Delivered(t)`: nothing after the first terminal call.
*/
module Observables {
  import opened Wrappers
  import opened Protocol

  /** The callback calls made, and whether the subscription ended in a panic after them. */
  datatype Outcome<A> = Returned(calls: seq<A>) | Panicked(calls: seq<A>)
  {
    function Prepend(a: A): Outcome<A>
    {
      this.(calls := [a] + calls)
    }
  }

  /** `subscribe_next`: the item callback for every item; a failure panics. */
  function SubscribeNext<T, E>(t: seq<Event<T, E>>): (o: Outcome<T>)
    ensures o.calls == Items(Delivered(t))
    ensures o.Panicked? <==> FailedTrace(Delivered(t))
  {
    if t == [] then Returned([])
    else match t[0]
      case Next(x) => SubscribeNext(t[1..]).Prepend(x)
      case Completed => Returned([])
      case Error(_) => Panicked([])
  }

  /** `subscribe_completed`: items and completion reach their callbacks; a failure panics. */
  function SubscribeCompleted<T, E>(t: seq<Event<T, E>>): (o: Outcome<Event<T, E>>)
    ensures var d := Delivered(t);
      o == if FailedTrace(d) then Panicked(d[..|d| - 1]) else Returned(d)
  {
    if t == [] then Returned([])
    else match t[0]
      case Next(x) => SubscribeCompleted(t[1..]).Prepend(Next(x))
      case Completed => Returned([Completed])
      case Error(_) => Panicked([])
  }

  /**
    `subscribe_error`: items, completion and failure each reach their own callback; the
    error callback is called at most once and nothing is called after it.
  */
  function SubscribeError<T, E>(t: seq<Event<T, E>>): (o: Outcome<Event<T, E>>)
    ensures o == Returned(Delivered(t))
  {
    if t == [] then Returned([])
    else match t[0]
      case Next(x) => SubscribeError(t[1..]).Prepend(Next(x))
      case Completed => Returned([Completed])
      case Error(e) => Returned([Error(e)])
  }

  /** The argument of the `subscribe_option` callback for an item or the completion. */
  function OptionArg<T, E>(e: Event<T, E>): (a: Option<T>)
    ensures a.Some? <==> e.Next?
    ensures e.Next? ==> a.value == e.item
  {
    if e.Next? then Some(e.item) else None
  }

  /** `subscribe_option`: `Some(x)` per item, `None` on completion; a failure panics. */
  function SubscribeOption<T, E>(t: seq<Event<T, E>>): (o: Outcome<Option<T>>)
    ensures var d := Delivered(t);
      (o.Panicked? <==> FailedTrace(d)) &&
      |o.calls| == (if FailedTrace(d) then |d| - 1 else |d|) &&
      forall i :: 0 <= i < |o.calls| ==> o.calls[i] == OptionArg(d[i])
  {
    if t == [] then Returned([])
    else match t[0]
      case Next(x) => SubscribeOption(t[1..]).Prepend(Some(x))
      case Completed => Returned([None])
      case Error(_) => Panicked([])
  }

  /** The argument of the `subscribe_result` callback for one call on the observer. */
  function ResultArg<T, E>(e: Event<T, E>): (a: Result<Option<T>, E>)
    ensures a.Err? <==> e.Error?
    ensures a == Ok(None) <==> e.Completed?
    ensures e.Next? ==> a == Ok(Some(e.item))
    ensures e.Error? ==> a.error == e.error
  {
    match e
    case Next(x) => Ok(Some(x))
    case Completed => Ok(None)
    case Error(error) => Err(error)
  }

  /** `subscribe_result`: `Ok(Some(x))` per item, `Ok(None)` on completion, `Err(e)` on failure. */
  function SubscribeResult<T, E>(t: seq<Event<T, E>>): (o: Outcome<Result<Option<T>, E>>)
    ensures var d := Delivered(t);
      o.Returned? && |o.calls| == |d| &&
      forall i :: 0 <= i < |d| ==> o.calls[i] == ResultArg(d[i])
  {
    if t == [] then Returned([])
    else match t[0]
      case Next(x) => SubscribeResult(t[1..]).Prepend(Ok(Some(x)))
      case Completed => Returned([Ok(None)])
      case Error(e) => Returned([Err(e)])
  }

  /**
    The error-handling split: the helpers without an error handler panic exactly when the
    source fails, the ones with a handler never panic.
  */
  lemma ErrorHandlingSplit<T, E>(t: seq<Event<T, E>>)
    requires WellFormed(t)
    ensures SubscribeNext(t).Panicked? <==> FailedTrace(t)
    ensures SubscribeCompleted(t).Panicked? <==> FailedTrace(t)
    ensures SubscribeOption(t).Panicked? <==> FailedTrace(t)
    ensures SubscribeError(t).Returned? && SubscribeResult(t).Returned?
  {
  }

  /** The error callback of `subscribe_error` is called at most once, and last. */
  lemma ErrorRoutedOnce<T, E>(t: seq<Event<T, E>>)
    ensures var calls := SubscribeError(t).calls;
      forall i :: 0 <= i < |calls| && !calls[i].Next? ==> i == |calls| - 1
  {
  }

  /** After `None` the `subscribe_option` callback is never called again. */
  lemma OptionNoneIsLast<T, E>(t: seq<Event<T, E>>)
    ensures var calls := SubscribeOption(t).calls;
      forall i :: 0 <= i < |calls| && calls[i].None? ==> i == |calls| - 1
  {
    var d := Delivered(t);
    var calls := SubscribeOption(t).calls;
    forall i | 0 <= i < |calls| && calls[i].None? ensures i == |calls| - 1 {
      assert !d[i].Next?;
    }
  }

  /** After `Ok(None)` or `Err(e)` the `subscribe_result` callback is never called again. */
  lemma ResultTerminalIsLast<T, E>(t: seq<Event<T, E>>)
    ensures var calls := SubscribeResult(t).calls;
      forall i :: 0 <= i < |calls| && (calls[i].Err? || calls[i] == Ok(None)) ==> i == |calls| - 1
  {
    var d := Delivered(t);
    var calls := SubscribeResult(t).calls;
    forall i | 0 <= i < |calls| && (calls[i].Err? || calls[i] == Ok(None)) ensures i == |calls| - 1 {
      assert !d[i].Next?;
    }
  }

  /** The calls `subscribe_option` makes for a finite source, one index at a time. */
  lemma FiniteOptionCalls<T, E>(xs: seq<T>)
    ensures var calls := SubscribeOption(FromItems<T, E>(xs)).calls;
      SubscribeOption(FromItems<T, E>(xs)).Returned? && |calls| == |xs| + 1 && calls[|xs|] == None &&
      forall i :: 0 <= i < |xs| ==> calls[i] == Some(xs[i])
  {
    var t := FromItems<T, E>(xs);
    assert Delivered(t) == t && !FailedTrace(t);
  }

  /** Calls that are `Some(x)` for every item and then `None` are the sequence written out. */
  lemma OptionCallsAre<T>(calls: seq<Option<T>>, xs: seq<T>)
    requires |calls| == |xs| + 1 && calls[|xs|] == None
    requires forall i :: 0 <= i < |xs| ==> calls[i] == Some(xs[i])
    ensures calls == seq(|xs|, i requires 0 <= i < |xs| => Some(xs[i])) + [None]
  {
    var want := seq(|xs|, i requires 0 <= i < |xs| => Some(xs[i])) + [None];
    forall i | 0 <= i < |want| ensures calls[i] == want[i] {
      if i < |xs| { assert want[i] == Some(xs[i]); }
    }
  }

  /** A finite source `[a, b, ...]` through `subscribe_option` gives `[Some(a), Some(b), ..., None]`. */
  lemma OptionOfFinite<T, E>(xs: seq<T>)
    ensures SubscribeOption(FromItems<T, E>(xs)) ==
      Returned(seq(|xs|, i requires 0 <= i < |xs| => Some(xs[i])) + [None])
  {
    var o := SubscribeOption(FromItems<T, E>(xs));
    FiniteOptionCalls<T, E>(xs);
    OptionCallsAre(o.calls, xs);
  }

  /** The calls `subscribe_result` makes for a finite source, one index at a time. */
  lemma FiniteResultCalls<T, E>(xs: seq<T>)
    ensures var calls := SubscribeResult(FromItems<T, E>(xs)).calls;
      SubscribeResult(FromItems<T, E>(xs)).Returned? && |calls| == |xs| + 1 && calls[|xs|] == Ok(None) &&
      forall i :: 0 <= i < |xs| ==> calls[i] == Ok(Some(xs[i]))
  {
    var t := FromItems<T, E>(xs);
    assert Delivered(t) == t;
  }

  /** Calls that are `Ok(Some(x))` for every item and then `Ok(None)` are the sequence written out. */
  lemma ResultCallsAre<T, E>(calls: seq<Result<Option<T>, E>>, xs: seq<T>)
    requires |calls| == |xs| + 1 && calls[|xs|] == Ok(None)
    requires forall i :: 0 <= i < |xs| ==> calls[i] == Ok(Some(xs[i]))
    ensures calls == seq(|xs|, i requires 0 <= i < |xs| => Ok(Some(xs[i]))) + [Ok(None)]
  {
    var want := seq(|xs|, i requires 0 <= i < |xs| => Ok(Some(xs[i]))) + [Ok(None)];
    forall i | 0 <= i < |want| ensures calls[i] == want[i] {
      if i < |xs| { assert want[i] == Ok(Some(xs[i])); }
    }
  }

  /** A finite source `[a, b, ...]` through `subscribe_result` gives `[Ok(Some(a)), ..., Ok(None)]`. */
  lemma ResultOfFinite<T, E>(xs: seq<T>)
    ensures SubscribeResult(FromItems<T, E>(xs)) ==
      Returned(seq(|xs|, i requires 0 <= i < |xs| => Ok(Some(xs[i]))) + [Ok(None)])
  {
    var o := SubscribeResult(FromItems<T, E>(xs));
    FiniteResultCalls<T, E>(xs);
    ResultCallsAre<T, E>(o.calls, xs);
  }

  /**
    A cold observable: a finite source (a slice, an `Option`, a `Result`, or the never
    source) that makes all of its calls, a well-formed trace, before `subscribe` returns.
    `subscriptions` counts the calls of `subscribe`; the subscription handle is the
    number of that call.
  */
  class ColdSource<T, E> {
    const trace: seq<Event<T, E>>
    var subscriptions: nat

    constructor (trace: seq<Event<T, E>>)
      requires WellFormed(trace)
      ensures this.trace == trace && subscriptions == 0
    {
      this.trace := trace;
      subscriptions := 0;
    }

    /** `Observable::subscribe`: the calls made on the observer, and the subscription. */
    method Subscribe() returns (sub: nat, calls: seq<Event<T, E>>)
      modifies this
      ensures subscriptions == old(subscriptions) + 1 && sub == old(subscriptions)
      ensures calls == trace
    {
      sub := subscriptions;
      subscriptions := subscriptions + 1;
      calls := trace;
    }
  }

  /** `subscribe_next` on a source: one subscription, through the panicking item-only adapter. */
  method SubscribeNextTo<T, E>(source: ColdSource<T, E>) returns (sub: nat, o: Outcome<T>)
    modifies source
    ensures source.subscriptions == old(source.subscriptions) + 1 && sub == old(source.subscriptions)
    ensures o == SubscribeNext(source.trace)
  {
    var calls;
    sub, calls := source.Subscribe();
    o := SubscribeNext(calls);
  }

  /** `subscribe_option` on a source. */
  method SubscribeOptionTo<T, E>(source: ColdSource<T, E>) returns (sub: nat, o: Outcome<Option<T>>)
    modifies source
    ensures source.subscriptions == old(source.subscriptions) + 1 && sub == old(source.subscriptions)
    ensures o == SubscribeOption(source.trace)
  {
    var calls;
    sub, calls := source.Subscribe();
    o := SubscribeOption(calls);
  }

  /** `subscribe_result` on a source. */
  method SubscribeResultTo<T, E>(source: ColdSource<T, E>) returns (sub: nat, o: Outcome<Result<Option<T>, E>>)
    modifies source
    ensures source.subscriptions == old(source.subscriptions) + 1 && sub == old(source.subscriptions)
    ensures o == SubscribeResult(source.trace)
  {
    var calls;
    sub, calls := source.Subscribe();
    o := SubscribeResult(calls);
  }

  /** The calls `subscribe_result` makes for a slice of four items. */
  lemma SliceResultCalls<T, E>(a: T, b: T, c: T, d: T)
    ensures SubscribeResult(FromItems<T, E>([a, b, c, d])) ==
      Returned([Ok(Some(a)), Ok(Some(b)), Ok(Some(c)), Ok(Some(d)), Ok(None)])
  {
    var t := FromItems<T, E>([a, b, c, d]);
    assert |t| == 5 && t[4] == Completed;
    assert t[0] == Next(a) && t[1] == Next(b) && t[2] == Next(c) && t[3] == Next(d);
    var o := SubscribeResult(t);
    assert o.Returned? && |o.calls| == 5 by {
      assert Delivered(t) == t;
    }
    assert o.calls[0] == ResultArg(t[0]) && o.calls[1] == ResultArg(t[1]) && o.calls[2] == ResultArg(t[2]);
    assert o.calls[3] == ResultArg(t[3]) && o.calls[4] == ResultArg(t[4]);
  }

  /** tests/rx.rs:180-187: the slice `[2, 3, 5, 7]` through `subscribe_result`. */
  method SliceThroughResult() returns (o: Outcome<Result<Option<int>, ()>>)
    ensures o == Returned([Ok(Some(2)), Ok(Some(3)), Ok(Some(5)), Ok(Some(7)), Ok(None)])
  {
    var xs := [2, 3, 5, 7];
    SliceResultCalls<int, ()>(2, 3, 5, 7);
    var source := new ColdSource(FromItems<int, ()>(xs));
    var sub;
    sub, o := SubscribeResultTo(source);
  }

  /** tests/rx.rs:93-101: an `Err` result through `subscribe_next` panics without any item call. */
  method ErrorThroughNext() returns (o: Outcome<int>)
    ensures o == Panicked([])
  {
    var source := new ColdSource([Error(())]);
    var sub;
    sub, o := SubscribeNextTo(source);
  }
}

=== FILE: observers.dfy ===
/**
  The Observer trait and the observer made from a closure (src/observer.rs).

  The trait's terminal methods take `self` by value; in the trace model that is the
  precondition `Open` of `Protocol.Deliver`. A closure `FnMut(Option<Result<T, E>>)` is an
  observer: each call on it becomes one call of the closure.
*/
module Observers {
  import opened Wrappers
  import opened Protocol

  /** The argument the closure receives for one call on the observer. */
  function FnArg<T, E>(e: Event<T, E>): (a: Option<Result<T, E>>)
    ensures EventOf(a) == e
    ensures e.Next? <==> a.Some? && a.value.Ok?
  {
    match e
    case Next(item) => Some(Ok(item))
    case Completed => None
    case Error(error) => Some(Err(error))
  }

  /** The call on the observer that a closure argument stands for. */
  function EventOf<T, E>(a: Option<Result<T, E>>): Event<T, E>
  {
    match a
    case Some(Ok(item)) => Next(item)
    case None => Completed
    case Some(Err(error)) => Error(error)
  }

  /** The closure's calls, in order, for the calls made on the observer. */
  function FnCalls<T, E>(t: seq<Event<T, E>>): (args: seq<Option<Result<T, E>>>)
    ensures |args| == |t|
    ensures forall i :: 0 <= i < |t| ==> args[i] == FnArg(t[i])
  {
    if t == [] then [] else [FnArg(t[0])] + FnCalls(t[1..])
  }

  /** The calls on the observer are recovered from the closure's calls: nothing is lost. */
  lemma FnCallsInjective<T, E>(t: seq<Event<T, E>>, u: seq<Event<T, E>>)
    requires FnCalls(t) == FnCalls(u)
    ensures t == u
  {
    forall i | 0 <= i < |t| ensures t[i] == u[i] {
      assert EventOf(FnCalls(t)[i]) == t[i];
    }
  }

  /**
    After the closure is called with `None` or `Some(Err(_))` it is never called again:
    for a well-formed trace those arguments can only come last.
  */
  lemma FnCallsEndAtTerminal<T, E>(t: seq<Event<T, E>>)
    requires WellFormed(t)
    ensures forall i :: 0 <= i < |t| && !(FnCalls(t)[i].Some? && FnCalls(t)[i].value.Ok?) ==> i == |t| - 1
  {
  }

  /**
    A finite source of `k` items delivered to a closure observer: `k` calls with
    `Some(Ok(_))`, in order, then exactly one call with `None`.
  */
  lemma {:induction false} FnCallsOfFinite<T, E>(xs: seq<T>)
    ensures var args := FnCalls(FromItems<T, E>(xs));
      |args| == |xs| + 1 && args[|xs|] == None &&
      forall i :: 0 <= i < |xs| ==> args[i] == Some(Ok(xs[i]))
  {
    var t := FromItems<T, E>(xs);
    assert t == Nexts(xs) + [Completed];
    assert t[|xs|] == Completed;
  }
}

=== FILE: protocol.dfy ===
/**
  The Observer/Observable protocol as event traces.

  An observable calls `on_next` for every value it produces and then at most one of
  `on_completed` and `on_error`; the terminal methods take the observer by value, so
  nothing can be called on it afterwards. A trace records the calls in order.
*/
module Protocol {

  /** One call an observable makes on an observer. */
  datatype Event<T, E> = Next(item: T) | Completed | Error(error: E)

  /** Zero or more items, then at most one terminal event, which is the last one. */
  predicate WellFormed<T, E>(t: seq<Event<T, E>>)
  {
    forall i :: 0 <= i < |t| - 1 ==> t[i].Next?
  }

  /** The trace ends with `on_completed` or `on_error`. */
  predicate Terminated<T, E>(t: seq<Event<T, E>>)
  {
    |t| > 0 && !t[|t| - 1].Next?
  }

  /** The observer still exists: it has received items only, so it may be called again. */
  predicate Open<T, E>(t: seq<Event<T, E>>)
  {
    forall i :: 0 <= i < |t| ==> t[i].Next?
  }

  /** The trace ends with `on_completed`. */
  predicate CompletedTrace<T, E>(t: seq<Event<T, E>>)
  {
    |t| > 0 && t[|t| - 1].Completed?
  }

  /** The trace ends with `on_error`. */
  predicate FailedTrace<T, E>(t: seq<Event<T, E>>)
  {
    |t| > 0 && t[|t| - 1].Error?
  }

  /**
    A call on an observer that still exists. Its precondition is the ownership rule of
    the Observer trait (src/observer.rs): `on_completed` and `on_error` consume `self`.
  */
  function Deliver<T, E>(t: seq<Event<T, E>>, e: Event<T, E>): (r: seq<Event<T, E>>)
    requires Open(t)
    ensures WellFormed(r) && |r| == |t| + 1 && r[..|t|] == t && r[|t|] == e
    ensures Open(r) <==> e.Next?
    ensures Terminated(r) <==> !e.Next?
  {
    t + [e]
  }

  /**
    What an observer actually receives when a source attempts the calls `t`: everything
    up to and including the first terminal event, since the terminal call consumes the
    observer. The result is always well-formed, and a well-formed `t` is received whole.
  */
  function Delivered<T, E>(t: seq<Event<T, E>>): (r: seq<Event<T, E>>)
    ensures WellFormed(r)
    ensures |r| <= |t| && r == t[..|r|]
    ensures WellFormed(t) ==> r == t
    ensures Open(t) || Terminated(r)
  {
    if t == [] then []
    else if t[0].Next? then
      var rest := Delivered(t[1..]);
      assert WellFormed(t) ==> WellFormed(t[1..]) by {
        if WellFormed(t) {
          forall i | 0 <= i < |t[1..]| - 1 ensures t[1..][i].Next? {
            assert t[1..][i] == t[i + 1];
          }
        }
      }
      assert !Open(t) ==> !Open(t[1..]) by {
        if !Open(t) {
          var i :| 0 <= i < |t| && !t[i].Next?;
          assert i > 0 && t[1..][i - 1] == t[i];
        }
      }
      [t[0]] + rest
    else [t[0]]
  }

  /** The payloads of the items of a trace, in order. */
  function Items<T, E>(t: seq<Event<T, E>>): (xs: seq<T>)
    ensures |xs| <= |t|
    ensures Open(t) ==> |xs| == |t| && forall i :: 0 <= i < |t| ==> t[i] == Next(xs[i])
  {
    if t == [] then []
    else if t[0].Next? then [t[0].item] + Items(t[1..])
    else Items(t[1..])
  }

  /** The calls `on_next(x)` for each `x` of `xs`, in order. */
  function Nexts<T, E>(xs: seq<T>): (t: seq<Event<T, E>>)
    ensures |t| == |xs| && Open(t)
    ensures forall i :: 0 <= i < |xs| ==> t[i] == Next(xs[i])
  {
    seq(|xs|, i requires 0 <= i < |xs| => Next(xs[i]))
  }

  /** Pushing one more item extends the calls by that item's `on_next`. */
  lemma NextsPush<T, E>(xs: seq<T>, i: nat)
    requires i < |xs|
    ensures Nexts<T, E>(xs[..i + 1]) == Nexts<T, E>(xs[..i]) + [Next(xs[i])]
  {
    var a, b := Nexts<T, E>(xs[..i + 1]), Nexts<T, E>(xs[..i]) + [Next(xs[i])];
    assert |a| == |b|;
    forall j | 0 <= j < |a| ensures a[j] == b[j] {
      if j < i { assert xs[..i + 1][j] == xs[..i][j]; }
    }
  }

  /**
    The calls made by a finite container source (a slice): one item per element in
    order, then exactly one completion, never an error.
  */
  function FromItems<T, E>(xs: seq<T>): (t: seq<Event<T, E>>)
    ensures WellFormed(t) && CompletedTrace(t) && |t| == |xs| + 1
    ensures forall i :: 0 <= i < |xs| ==> t[i] == Next(xs[i])
    ensures Items(t) == xs
  {
    var t := Nexts(xs) + [Completed];
    ItemsOfNexts<T, E>(xs);
    ItemsAppendTerminal<T, E>(Nexts(xs), Completed);
    t
  }

  /** Items recovers the payloads `on_next` was called with. */
  lemma {:induction false} ItemsOfNexts<T, E>(xs: seq<T>)
    ensures Items<T, E>(Nexts(xs)) == xs
  {
    if xs != [] {
      var t := Nexts<T, E>(xs);
      assert t[1..] == Nexts(xs[1..]);
      ItemsOfNexts<T, E>(xs[1..]);
      assert xs == [xs[0]] + xs[1..];
    }
  }

  /** Items distributes over concatenation. */
  lemma {:induction false} ItemsAppend<T, E>(a: seq<Event<T, E>>, b: seq<Event<T, E>>)
    ensures Items(a + b) == Items(a) + Items(b)
  {
    if a != [] {
      assert (a + b)[1..] == a[1..] + b;
      ItemsAppend(a[1..], b);
    } else {
      assert a + b == b;
    }
  }

  /** A terminal event adds no item. */
  lemma ItemsAppendTerminal<T, E>(a: seq<Event<T, E>>, e: Event<T, E>)
    requires !e.Next?
    ensures Items(a + [e]) == Items(a)
  {
    ItemsAppend(a, [e]);
    assert [e][1..] == [];
  }

  /** A well-formed trace is its items followed by its terminal event, if any. */
  lemma {:induction false} WellFormedShape<T, E>(t: seq<Event<T, E>>)
    requires WellFormed(t)
    ensures Open(t) ==> t == Nexts(Items(t))
    ensures Terminated(t) ==> t == Nexts(Items(t)) + [t[|t| - 1]]
  {
    if Open(t) {
      assert t == Nexts(Items(t));
    } else if Terminated(t) {
      var n := |t| - 1;
      assert t == t[..n] + [t[n]];
      assert Open(t[..n]);
      ItemsAppendTerminal(t[..n], t[n]);
      assert t[..n] == Nexts(Items(t[..n]));
    }
  }

  /** Open, Terminated and WellFormed fit together: a well-formed trace is exactly one of open or terminated. */
  lemma OpenOrTerminated<T, E>(t: seq<Event<T, E>>)
    requires WellFormed(t)
    ensures Open(t) != Terminated(t)
    ensures Terminated(t) ==> Open(t[..|t| - 1])
  {
  }
}

=== FILE: subject.dfy ===
/**
  The multicast subject (src/subject.rs).

  A subject keeps an ordered list of registrations; each is the owner side of a lifeline
  cell over an observer, and the subscriber holds the lifeline side. An observer is
  modelled by the trace of calls it has received so far. `on_next` delivers to every live
  registration and then prunes the dead ones; `on_completed` and `on_error` drain the list
  and consume the subject.
*/
module Subjects {
  import opened Wrappers
  import opened Protocol
  import opened Lifeline

  /** No registration appears twice. */
  predicate Distinct<X(==)>(s: seq<X>)
  {
    forall i, j :: 0 <= i < j < |s| ==> s[i] != s[j]
  }

  /** The elements of `s` whose flag in `keep` is set, in their original order. */
  function Keep<X>(s: seq<X>, keep: seq<bool>): (r: seq<X>)
    requires |keep| == |s|
    ensures |r| <= |s|
  {
    if s == [] then [] else (if keep[0] then [s[0]] else []) + Keep(s[1..], keep[1..])
  }

  /** Filtering distributes over concatenation. */
  lemma {:induction false} KeepAppend<X>(a: seq<X>, ka: seq<bool>, b: seq<X>, kb: seq<bool>)
    requires |ka| == |a| && |kb| == |b|
    ensures Keep(a + b, ka + kb) == Keep(a, ka) + Keep(b, kb)
  {
    if a == [] {
      assert a + b == b && ka + kb == kb;
    } else {
      var ab, kab := a + b, ka + kb;
      assert ab[0] == a[0] && kab[0] == ka[0];
      assert ab[1..] == a[1..] + b && kab[1..] == ka[1..] + kb;
      KeepAppend(a[1..], ka[1..], b, kb);
      var head := if ka[0] then [a[0]] else [];
      assert Keep(ab, kab) == head + (Keep(a[1..], ka[1..]) + Keep(b, kb));
      assert Keep(a, ka) == head + Keep(a[1..], ka[1..]);
    }
  }

  /** Nothing is filtered out when every flag is set. */
  lemma {:induction false} KeepAll<X>(s: seq<X>, keep: seq<bool>)
    requires |keep| == |s| && forall i :: 0 <= i < |keep| ==> keep[i]
    ensures Keep(s, keep) == s
  {
    if s != [] {
      KeepAll(s[1..], keep[1..]);
    }
  }

  /** Filtering keeps only elements of the list, and keeps them distinct. */
  lemma {:induction false} KeepDistinct<X>(s: seq<X>, keep: seq<bool>)
    requires |keep| == |s| && Distinct(s)
    ensures forall x :: x in Keep(s, keep) ==> x in s
    ensures Distinct(Keep(s, keep))
  {
    if s != [] {
      KeepDistinct(s[1..], keep[1..]);
      assert s[0] !in s[1..];
    }
  }

  /** `Vec::remove(i)`: the list without its `i`-th element. */
  function RemoveAt<X>(s: seq<X>, i: nat): (r: seq<X>)
    requires i < |s|
    ensures |r| == |s| - 1
    ensures forall j :: 0 <= j < i ==> r[j] == s[j]
    ensures forall j :: i <= j < |r| ==> r[j] == s[j + 1]
  {
    s[..i] + s[i + 1..]
  }

  /** The positions whose flag is clear, in increasing order, as `on_next` records them. */
  function DeadIndices(keep: seq<bool>): (ks: seq<nat>)
    ensures |ks| <= |keep|
    ensures forall a :: 0 <= a < |ks| ==> ks[a] < |keep| && !keep[ks[a]]
    decreases |keep|
  {
    if keep == [] then []
    else
      var n := |keep| - 1;
      DeadIndices(keep[..n]) + (if keep[n] then [] else [n])
  }

  /**
    The recorded dead indices are strictly increasing, all in bounds, and are exactly the
    positions of the dead registrations.
  */
  lemma {:induction false} DeadIndicesExact(keep: seq<bool>)
    ensures var ks := DeadIndices(keep);
      (forall a, b :: 0 <= a < b < |ks| ==> ks[a] < ks[b]) &&
      (forall a :: 0 <= a < |ks| ==> ks[a] < |keep| && !keep[ks[a]]) &&
      (forall j :: 0 <= j < |keep| && !keep[j] ==> j in ks)
    decreases |keep|
  {
    if keep != [] {
      var n := |keep| - 1;
      DeadIndicesExact(keep[..n]);
      var ks, prev := DeadIndices(keep), DeadIndices(keep[..n]);
      assert ks == prev + (if keep[n] then [] else [n]);
      forall a, b | 0 <= a < b < |ks| ensures ks[a] < ks[b] {
        assert ks[a] == prev[a];
        if b < |prev| {
          assert ks[b] == prev[b];
        }
      }
      forall j | 0 <= j < |keep| && !keep[j] ensures j in ks {
        if j < n {
          assert keep[..n][j] == keep[j];
          assert j in prev;
        } else {
          assert ks[|ks| - 1] == n;
        }
      }
    }
  }

  /** Scanning one more position records it if, and only if, it is dead. */
  lemma DeadStep(keep: seq<bool>, i: nat)
    requires i < |keep|
    ensures DeadIndices(keep[..i + 1]) == DeadIndices(keep[..i]) + (if keep[i] then [] else [i])
  {
    assert keep[..i + 1][..i] == keep[..i];
  }

  /** Extending the scanned prefix by one position, as each round of the delivery loop does. */
  lemma ScanStep<X>(s: seq<X>, keep: seq<bool>, i: nat)
    requires |keep| == |s| && i < |s|
    ensures Keep(s[..i + 1], keep[..i + 1]) == Keep(s[..i], keep[..i]) + (if keep[i] then [s[i]] else [])
    ensures DeadIndices(keep[..i + 1]) == DeadIndices(keep[..i]) + (if keep[i] then [] else [i])
  {
    assert s[..i + 1] == s[..i] + [s[i]];
    assert keep[..i + 1] == keep[..i] + [keep[i]];
    DeadStep(keep, i);
    KeepAppend(s[..i], keep[..i], [s[i]], [keep[i]]);
  }

  /** The kept elements among the first `i`, counted the way the delivery loop goes. */
  function KeptUpTo<X>(s: seq<X>, keep: seq<bool>, i: nat): seq<X>
    requires |keep| == |s| && i <= |s|
  {
    if i == 0 then [] else KeptUpTo(s, keep, i - 1) + (if keep[i - 1] then [s[i - 1]] else [])
  }

  /** One more position: the element joins when it is kept. */
  lemma KeptUpToStep<X>(s: seq<X>, keep: seq<bool>, i: nat)
    requires |keep| == |s| && i < |s|
    ensures keep[i] ==> KeptUpTo(s, keep, i + 1) == KeptUpTo(s, keep, i) + [s[i]]
    ensures !keep[i] ==> KeptUpTo(s, keep, i + 1) == KeptUpTo(s, keep, i)
  {
  }

  /** The dead positions among the first `i`, recorded the way the delivery loop goes. */
  function DeadUpTo(keep: seq<bool>, i: nat): seq<nat>
    requires i <= |keep|
  {
    if i == 0 then [] else DeadUpTo(keep, i - 1) + (if keep[i - 1] then [] else [i - 1])
  }

  /** Recording by position gives `DeadIndices` of the prefix. */
  lemma {:induction false} DeadUpToPrefix(keep: seq<bool>, i: nat)
    requires i <= |keep|
    ensures DeadUpTo(keep, i) == DeadIndices(keep[..i])
  {
    if i > 0 {
      var j := i - 1;
      calc {
        DeadUpTo(keep, i);
        DeadUpTo(keep, j) + (if keep[j] then [] else [j]);
        { DeadUpToPrefix(keep, j); }
        DeadIndices(keep[..j]) + (if keep[j] then [] else [j]);
        { DeadStep(keep, j); }
        DeadIndices(keep[..j + 1]);
      }
    } else {
      assert keep[..0] == [];
    }
  }

  /** Counting by position is `Keep` on the prefix. */
  lemma {:induction false} KeptUpToPrefix<X>(s: seq<X>, keep: seq<bool>, i: nat)
    requires |keep| == |s| && i <= |s|
    ensures KeptUpTo(s, keep, i) == Keep(s[..i], keep[..i])
  {
    if i > 0 {
      assert KeptUpTo(s, keep, i) == KeptUpTo(s, keep, i - 1) + (if keep[i - 1] then [s[i - 1]] else []);
      KeptUpToPrefix(s, keep, i - 1);
      ScanStep(s, keep, i - 1);
    } else {
      assert s[..0] == [] && keep[..0] == [];
    }
  }

  /**
    Every registration is either kept (one delivered copy) or recorded as dead: the
    copies made and the removals scheduled add up to the registrations scanned.
  */
  lemma {:induction false} KeepCount<X>(s: seq<X>, keep: seq<bool>)
    requires |keep| == |s|
    ensures |Keep(s, keep)| + |DeadIndices(keep)| == |s|
    decreases |s|
  {
    if s != [] {
      var n := |s| - 1;
      KeepCount(s[..n], keep[..n]);
      ScanStep(s, keep, n);
      assert s[..n + 1] == s && keep[..n + 1] == keep;
    }
  }

  /** The boundary below which the removal loop has not yet removed anything. */
  function Cut(ks: seq<nat>, k: nat, n: nat): nat
  {
    if k < |ks| then ks[k] else n
  }

  /** Between two consecutive recorded indices every registration is live. */
  lemma LiveBetween(keep: seq<bool>, k: nat, lo: int)
    requires var ks := DeadIndices(keep); k <= |ks| && (k == 0 ==> lo == -1) && (k > 0 ==> lo == ks[k - 1])
    ensures var c := Cut(DeadIndices(keep), k, |keep|);
      lo < c <= |keep| && forall j :: lo < j < c ==> keep[j]
  {
    var ks := DeadIndices(keep);
    DeadIndicesExact(keep);
    var c := Cut(ks, k, |keep|);
    forall m | 0 <= m < |ks| ensures ks[m] <= lo || c <= ks[m] {
      if m < k {
        assert ks[m] <= ks[k - 1];
      } else {
        assert ks[k] <= ks[m];
      }
    }
    forall j | lo < j < c ensures keep[j] {
      assert forall m :: 0 <= m < |ks| ==> ks[m] != j;
      assert j !in ks;
    }
  }

  /** Removing a dead element followed by live ones up to `c` leaves exactly those live ones. */
  lemma KeepFromDead<X>(s: seq<X>, keep: seq<bool>, d: nat, c: nat)
    requires |keep| == |s| && d < c <= |s| && !keep[d]
    requires forall j :: d < j < c ==> keep[j]
    ensures Keep(s[d..], keep[d..]) == s[d + 1..c] + Keep(s[c..], keep[c..])
  {
    assert s[d..] == [s[d]] + s[d + 1..c] + s[c..];
    assert keep[d..] == [keep[d]] + keep[d + 1..c] + keep[c..];
    KeepAppend([s[d]] + s[d + 1..c], [keep[d]] + keep[d + 1..c], s[c..], keep[c..]);
    KeepAppend([s[d]], [keep[d]], s[d + 1..c], keep[d + 1..c]);
    KeepAll(s[d + 1..c], keep[d + 1..c]);
    assert Keep([s[d]], [keep[d]]) == [];
  }

  /** Removing position `d` of a list whose first `c > d` elements are those of `s`. */
  lemma RemoveInPrefix<X>(s: seq<X>, c: nat, d: nat, rest: seq<X>)
    requires d < c <= |s|
    ensures RemoveAt(s[..c] + rest, d) == s[..d] + s[d + 1..c] + rest
  {
  }

  /**
    One step of the removal loop, taken from the highest recorded index down: the index
    is in bounds of the current list, and removing it extends the filtered suffix.
  */
  lemma RemoveStep<X>(s: seq<X>, keep: seq<bool>, k: nat)
    requires |keep| == |s| && 0 < k <= |DeadIndices(keep)|
    ensures var ks := DeadIndices(keep); var c := Cut(ks, k, |s|);
      c <= |s| && ks[k - 1] < c &&
      RemoveAt(s[..c] + Keep(s[c..], keep[c..]), ks[k - 1]) ==
        s[..ks[k - 1]] + Keep(s[ks[k - 1]..], keep[ks[k - 1]..])
  {
    var ks := DeadIndices(keep);
    var c := Cut(ks, k, |s|);
    var d := ks[k - 1];
    LiveBetween(keep, k, d);
    var rest := Keep(s[c..], keep[c..]);
    assert RemoveAt(s[..c] + rest, d) == s[..d] + s[d + 1..c] + rest by {
      RemoveInPrefix(s, c, d, rest);
    }
    assert Keep(s[d..], keep[d..]) == s[d + 1..c] + rest by {
      KeepFromDead(s, keep, d, c);
    }
    assert s[..d] + s[d + 1..c] + rest == s[..d] + (s[d + 1..c] + rest);
  }

  /** A list whose first `c` elements are all live is that prefix followed by the filtered rest. */
  lemma KeepLivePrefix<X>(s: seq<X>, keep: seq<bool>, c: nat)
    requires |keep| == |s| && c <= |s| && forall j :: 0 <= j < c ==> keep[j]
    ensures s[..c] + Keep(s[c..], keep[c..]) == Keep(s, keep)
  {
    var head, flags := s[..c], keep[..c];
    assert head + s[c..] == s && flags + keep[c..] == keep;
    assert forall j :: 0 <= j < c ==> flags[j] == keep[j];
    KeepAll(head, flags);
    KeepAppend(head, flags, s[c..], keep[c..]);
  }

  /** When the removal loop ends, the list is the live registrations in their old order. */
  lemma RemoveDone<X>(s: seq<X>, keep: seq<bool>)
    requires |keep| == |s|
    ensures var c := Cut(DeadIndices(keep), 0, |s|);
      c <= |s| && s[..c] + Keep(s[c..], keep[c..]) == Keep(s, keep)
  {
    var c := Cut(DeadIndices(keep), 0, |s|);
    LiveBetween(keep, 0, -1);
    KeepLivePrefix(s, keep, c);
  }

  /** A registration of a subject: the owner handle is held, and a live observer has not terminated. */
  predicate Registered<T, E>(s: Slot<seq<Event<T, E>>>)
  {
    s.Valid() && s.ownerHeld && (s.value.Some? ==> Open(s.value.value))
  }

  /** Which registrations are live: the owner can still reach the observer. */
  function Liveness<X>(ss: seq<Slot<X>>): (live: seq<bool>)
    ensures |live| == |ss| && forall i :: 0 <= i < |ss| ==> live[i] == Access(ss[i]).Some?
  {
    seq(|ss|, i requires 0 <= i < |ss| => Access(ss[i]).Some?)
  }

  /** The action `on_next(item)` runs on a live observer: one more call `on_next(item)`. */
  function AppendNext<T, E>(item: T): seq<Event<T, E>> -> seq<Event<T, E>>
  {
    t => t + [Next(item)]
  }

  /** The terminal call `e` on a taken observer, if there was one: its final trace. */
  function TerminalCall<T, E>(observer: Option<seq<Event<T, E>>>, e: Event<T, E>): (fs: seq<seq<Event<T, E>>>)
    ensures |fs| == (if observer.Some? then 1 else 0)
    ensures observer.Some? ==> fs[0] == observer.value + [e]
  {
    if observer.Some? then [observer.value + [e]] else []
  }

  /**
    The traces of the observers a terminal broadcast consumes: each live registration's
    trace followed by the terminal call `e`, in registration order; dead ones get nothing.
  */
  function Terminate<T, E>(ss: seq<Slot<seq<Event<T, E>>>>, e: Event<T, E>): (fs: seq<seq<Event<T, E>>>)
    ensures |fs| <= |ss|
    ensures forall i :: 0 <= i < |fs| ==> |fs[i]| > 0 && fs[i][|fs[i]| - 1] == e
    decreases |ss|
  {
    if ss == [] then []
    else
      var n := |ss| - 1;
      Terminate(ss[..n], e) + TerminalCall(Access(ss[n]), e)
  }

  /** Extending the drained prefix by one registration adds its final trace, if it was live. */
  lemma TerminateStep<T, E>(ss: seq<Slot<seq<Event<T, E>>>>, i: nat, e: Event<T, E>)
    requires i < |ss|
    ensures Terminate(ss[..i + 1], e) ==
      Terminate(ss[..i], e) + TerminalCall(Access(ss[i]), e)
  {
    assert ss[..i + 1][..i] == ss[..i];
  }

  /** The final traces of the first `i` registrations, counted the way the drain loop goes. */
  function DrainedUpTo<T, E>(ss: seq<Slot<seq<Event<T, E>>>>, i: nat, e: Event<T, E>): seq<seq<Event<T, E>>>
    requires i <= |ss|
  {
    if i == 0 then [] else DrainedUpTo(ss, i - 1, e) + TerminalCall(Access(ss[i - 1]), e)
  }

  /** Counting by position is the terminal broadcast on the prefix. */
  lemma {:induction false} DrainedUpToPrefix<T, E>(ss: seq<Slot<seq<Event<T, E>>>>, i: nat, e: Event<T, E>)
    requires i <= |ss|
    ensures DrainedUpTo(ss, i, e) == Terminate(ss[..i], e)
  {
    if i > 0 {
      var j := i - 1;
      calc {
        DrainedUpTo(ss, i, e);
        DrainedUpTo(ss, j, e) + TerminalCall(Access(ss[j]), e);
        { DrainedUpToPrefix(ss, j, e); }
        Terminate(ss[..j], e) + TerminalCall(Access(ss[j]), e);
        { TerminateStep(ss, j, e); }
        Terminate(ss[..j + 1], e);
      }
    } else {
      assert ss[..0] == [];
    }
  }

  /** The terminal broadcast's results line up with the live registrations. */
  lemma {:induction false} TerminateMatchesLive<T, E>(ss: seq<Slot<seq<Event<T, E>>>>, e: Event<T, E>)
    ensures var live := Keep(ss, Liveness(ss)); var fs := Terminate(ss, e);
      |fs| == |live| &&
      forall i :: 0 <= i < |fs| ==> Access(live[i]).Some? && fs[i] == Access(live[i]).value + [e]
    decreases |ss|
  {
    if ss != [] {
      var n := |ss| - 1;
      TerminateMatchesLive(ss[..n], e);
      TerminateStep(ss, n, e);
      assert ss[..n + 1] == ss;
      assert ss == ss[..n] + [ss[n]];
      var liveN := Liveness(ss[..n]);
      assert Liveness(ss) == liveN + [Access(ss[n]).Some?];
      KeepAppend(ss[..n], liveN, [ss[n]], [Access(ss[n]).Some?]);
      assert Keep(ss, Liveness(ss)) == Keep(ss[..n], liveN) + Keep([ss[n]], [Access(ss[n]).Some?]);
    }
  }

  /** Terminating well-formed registrations yields well-formed traces that end with `e`. */
  lemma {:induction false} TerminateWellFormed<T, E>(ss: seq<Slot<seq<Event<T, E>>>>, e: Event<T, E>)
    requires !e.Next?
    requires forall i :: 0 <= i < |ss| ==> Registered(ss[i])
    ensures forall t :: t in Terminate(ss, e) ==> WellFormed(t) && Terminated(t) && t[|t| - 1] == e
    decreases |ss|
  {
    if ss != [] {
      var n := |ss| - 1;
      assert forall i :: 0 <= i < n ==> ss[..n][i] == ss[i];
      TerminateWellFormed(ss[..n], e);
      TerminateStep(ss, n, e);
      assert ss[..n + 1] == ss;
      forall t | t in Terminate(ss, e) ensures WellFormed(t) && Terminated(t) && t[|t| - 1] == e {
        if t !in Terminate(ss[..n], e) {
          assert Registered(ss[n]) && t == Deliver(Access(ss[n]).value, e);
        }
      }
    }
  }

  /**
    A terminal broadcast gives exactly the live registrations, each exactly one terminal
    call after what it had received; for well-formed registrations each result is a
    well-formed trace ending with that call.
  */
  lemma TerminateDeliversOnce<T, E>(ss: seq<Slot<seq<Event<T, E>>>>, e: Event<T, E>)
    requires !e.Next?
    ensures var live := Keep(ss, Liveness(ss)); var fs := Terminate(ss, e);
      |fs| == |live| &&
      forall i :: 0 <= i < |fs| ==> Access(live[i]).Some? && fs[i] == Access(live[i]).value + [e]
    ensures (forall i :: 0 <= i < |ss| ==> Registered(ss[i])) ==>
      forall t :: t in Terminate(ss, e) ==> WellFormed(t) && Terminated(t) && t[|t| - 1] == e
  {
    TerminateMatchesLive(ss, e);
    if forall i :: 0 <= i < |ss| ==> Registered(ss[i]) {
      TerminateWellFormed(ss, e);
    }
  }

  /** The state of every cell in `cells`, in order. */
  ghost function Snapshot<X>(cells: seq<Cell<X>>): (ss: seq<Slot<X>>)
    reads set c | c in cells
    ensures |ss| == |cells| && forall i :: 0 <= i < |cells| ==> ss[i] == cells[i].State()
  {
    seq(|cells|, i requires 0 <= i < |cells| reads set c | c in cells => cells[i].State())
  }

  class Subject<T, E> {
    /** The owner sides of the registrations, in subscription order. */
    var observers: seq<Cell<seq<Event<T, E>>>>
    /** `on_completed` or `on_error` has consumed the subject. */
    var consumed: bool

    ghost predicate Valid()
      reads this, set c | c in observers
    {
      Distinct(observers) && forall i :: 0 <= i < |observers| ==> Registered(observers[i].State())
    }

    /** `Subject::new`: no registrations. */
    constructor ()
      ensures Valid() && observers == [] && !consumed
    {
      observers := [];
      consumed := false;
    }

    /**
      `SubjectObservable::subscribe` (through `Subject::observable`): appends one live
      registration for the observer and returns its lifeline as the subscription. The
      observer receives nothing now; the registrations before it are untouched.
    */
    method Subscribe(observer: seq<Event<T, E>>) returns (subscription: Cell<seq<Event<T, E>>>)
      requires Valid() && !consumed && Open(observer)
      modifies this
      ensures Valid() && !consumed
      ensures fresh(subscription) && subscription.State() == Fresh(observer)
      ensures observers == old(observers) + [subscription]
    {
      subscription := new Cell(observer);
      observers := observers + [subscription];
    }

    /**
      `on_next(item)`: delivers `item` once to every live registration, in order, records
      the positions of the dead ones and removes them from the highest down. Afterwards the
      list is the live registrations in their old order; `clones` counts the copies of
      `item` made, one per live registration; `deliveredTo` lists the registrations the
      item reached, in the order it reached them, which is registration order.
    */
    method OnNext(item: T) returns (clones: nat, ghost deliveredTo: seq<Cell<seq<Event<T, E>>>>)
      requires Valid() && !consumed
      modifies this, set c | c in observers
      ensures Valid() && !consumed
      ensures deliveredTo == Keep(old(observers), Liveness(old(Snapshot(observers))))
      ensures clones == |deliveredTo|
      ensures observers == Keep(old(observers), Liveness(old(Snapshot(observers))))
      ensures forall i :: 0 <= i < |old(observers)| ==>
        old(observers)[i].State() == Mutated(old(observers[i].State()), AppendNext(item))
      ensures clones == |observers|
    {
      ghost var cells := observers;
      ghost var before := Snapshot(observers);
      var removeIndices;
      removeIndices, clones, deliveredTo := DeliverNext(item, before);
      Prune(Liveness(before), removeIndices);
      KeepDistinct(cells, Liveness(before));
      forall j | 0 <= j < |observers| ensures Registered(observers[j].State()) {
        assert observers[j] in cells;
        var m :| 0 <= m < |cells| && cells[m] == observers[j];
        assert Registered(before[m]);
      }
    }

    /**
      The first loop of `on_next`: `with_mut_value_or` on every registration, delivering
      `item` to the live ones and recording the positions of the dead ones.
    */
    method DeliverNext(item: T, ghost before: seq<Slot<seq<Event<T, E>>>>)
      returns (removeIndices: seq<nat>, clones: nat, ghost deliveredTo: seq<Cell<seq<Event<T, E>>>>)
      requires Distinct(observers)
      requires |before| == |observers| && forall j :: 0 <= j < |observers| ==> before[j] == observers[j].State()
      requires forall j :: 0 <= j < |before| ==> Registered(before[j])
      modifies set c | c in observers
      ensures removeIndices == DeadIndices(Liveness(before))
      ensures deliveredTo == Keep(observers, Liveness(before))
      ensures clones == |deliveredTo|
      ensures forall i :: 0 <= i < |observers| ==>
        observers[i].State() == Mutated(before[i], AppendNext(item))
    {
      var cells := observers;
      ghost var live := Liveness(before);
      assert |live| == |cells|;
      removeIndices := [];
      deliveredTo := [];
      var i := 0;
      clones := 0;
      while i < |cells|
        invariant 0 <= i <= |cells|
        invariant removeIndices == DeadUpTo(live, i)
        invariant deliveredTo == KeptUpTo(cells, live, i) && clones == |deliveredTo|
        invariant forall j :: 0 <= j < |cells| ==>
          cells[j].State() == if j < i then Mutated(before[j], AppendNext(item)) else before[j]
      {
        KeptUpToStep(cells, live, i);
        assert cells[i].State() == before[i] && before[i].ownerHeld;
        assert forall j :: 0 <= j < |cells| && j != i ==> cells[j] != cells[i];
        var ran := cells[i].WithMutValueOr(AppendNext(item));
        assert ran == live[i];
        if ran {
          // The registration the item was just delivered to joins the log.
          deliveredTo := deliveredTo + [cells[i]];
          clones := clones + 1;
        } else {
          removeIndices := removeIndices + [i];
        }
        assert removeIndices == DeadUpTo(live, i + 1);
        assert deliveredTo == KeptUpTo(cells, live, i + 1);
        i := i + 1;
      }
      DeadUpToPrefix(live, i);
      KeptUpToPrefix(cells, live, i);
      assert cells[..i] == cells && live[..i] == live;
    }

    /** The second loop of `on_next`: `Vec::remove` at each recorded index, highest first. */
    method Prune(ghost live: seq<bool>, removeIndices: seq<nat>)
      requires |live| == |observers| && removeIndices == DeadIndices(live)
      modifies this
      ensures observers == Keep(old(observers), live)
      ensures consumed == old(consumed)
    {
      ghost var cells := observers;
      var k := |removeIndices|;
      assert cells[|cells|..] == [] && live[|cells|..] == [];
      assert cells[..|cells|] == cells;
      while k > 0
        invariant 0 <= k <= |removeIndices| && consumed == old(consumed)
        invariant Cut(removeIndices, k, |cells|) <= |cells|
        invariant observers == cells[..Cut(removeIndices, k, |cells|)] +
          Keep(cells[Cut(removeIndices, k, |cells|)..], live[Cut(removeIndices, k, |cells|)..])
      {
        RemoveStep(cells, live, k);
        k := k - 1;
        observers := RemoveAt(observers, removeIndices[k]);
      }
      RemoveDone(cells, live);
    }

    /**
      `on_completed`: drains the list, taking each observer; each live one receives
      exactly one completion, the dead ones nothing. The subject is consumed. `finals`
      are the traces of the consumed observers, in registration order.
    */
    method OnCompleted() returns (finals: seq<seq<Event<T, E>>>)
      requires Valid() && !consumed
      modifies this, set c | c in observers
      ensures consumed && observers == []
      ensures finals == Terminate(old(Snapshot(observers)), Completed)
      ensures forall i :: 0 <= i < |old(observers)| ==>
        old(observers)[i].State() == Taken(old(observers[i].State()))
    {
      finals := Drain(Completed, Snapshot(observers));
    }

    /**
      `on_error(error)`: drains the list; each live observer receives exactly one
      `on_error` with a copy of `error`, the dead ones nothing. The subject is consumed.
    */
    method OnError(error: E) returns (finals: seq<seq<Event<T, E>>>)
      requires Valid() && !consumed
      modifies this, set c | c in observers
      ensures consumed && observers == []
      ensures finals == Terminate(old(Snapshot(observers)), Error(error))
      ensures forall i :: 0 <= i < |old(observers)| ==>
        old(observers)[i].State() == Taken(old(observers[i].State()))
    {
      finals := Drain(Error(error), Snapshot(observers));
    }

    /**
      The loop both terminal methods share: `drain(..)`, `take()`, then the terminal call.
      `before` is the state of the registrations when it starts.
    */
    method Drain(e: Event<T, E>, ghost before: seq<Slot<seq<Event<T, E>>>>) returns (finals: seq<seq<Event<T, E>>>)
      requires Valid() && !consumed && !e.Next?
      requires |before| == |observers| && forall j :: 0 <= j < |observers| ==> before[j] == observers[j].State()
      modifies this, set c | c in observers
      ensures consumed && observers == []
      ensures finals == Terminate(before, e)
      ensures forall i :: 0 <= i < |old(observers)| ==>
        old(observers)[i].State() == Taken(before[i])
    {
      ghost var cells := observers;
      finals := [];
      var i := 0;
      while i < |observers|
        invariant observers == cells && 0 <= i <= |cells| && Distinct(cells)
        invariant finals == DrainedUpTo(before, i, e)
        invariant forall j :: 0 <= j < i ==> cells[j].State() == Taken(before[j])
        invariant forall j :: i <= j < |cells| ==> cells[j].State() == before[j]
      {
        assert cells[i].State() == before[i];
        assert forall j :: 0 <= j < |cells| && j != i ==> cells[j] != cells[i];
        var observer := observers[i].Take();
        assert observer == Access(before[i]);
        // The terminal call consumes the observer; its trace is final.
        finals := finals + TerminalCall(observer, e);
        i := i + 1;
      }
      DrainedUpToPrefix(before, i, e);
      assert before[..i] == before;
      observers := [];
      consumed := true;
    }
  }

  /** `on_next` on a subject nobody has subscribed to delivers nothing and keeps it empty. */
  method PushWithoutSubscribers<T, E>(item: T) returns (clones: nat, registrations: nat)
    ensures clones == 0 && registrations == 0
  {
    var subject := new Subject<T, E>();
    ghost var deliveredTo;
    clones, deliveredTo := subject.OnNext(item);
    registrations := |subject.observers|;
  }

  /**
    tests/subject.rs:12-26: one subscriber receives nothing upon subscription, and after
    each push of `xs[i]` it has received exactly `xs[..i + 1]`.
  */
  method PushInOrder<T, E>(xs: seq<T>) returns (atSubscribe: seq<Event<T, E>>, history: seq<seq<Event<T, E>>>)
    ensures atSubscribe == []
    ensures |history| == |xs| && forall i :: 0 <= i < |xs| ==> history[i] == Nexts(xs[..i + 1])
  {
    var subject := new Subject<T, E>();
    var sub := subject.Subscribe([]);
    atSubscribe := sub.value.value;
    history := [];
    var i := 0;
    while i < |xs|
      invariant 0 <= i <= |xs| && subject.Valid() && !subject.consumed
      invariant subject.observers == [sub] && sub.State() == Fresh(Nexts(xs[..i]))
      invariant |history| == i && forall j :: 0 <= j < i ==> history[j] == Nexts(xs[..j + 1])
      invariant fresh(subject) && fresh(sub)
    {
      var clones, deliveredTo := subject.OnNext(xs[i]);
      assert Keep([sub], [true]) == [sub];
      NextsPush<T, E>(xs, i);
      history := history + [sub.value.value];
      i := i + 1;
    }
  }

  /** tests/rx.rs:255-276: one item pushed to `n` live subscribers is copied exactly `n` times. */
  method ClonesOncePerObserver<T, E>(n: nat, item: T) returns (clones: nat)
    ensures clones == n
  {
    var subject := new Subject<T, E>();
    var k := 0;
    while k < n
      invariant 0 <= k <= n && subject.Valid() && !subject.consumed && |subject.observers| == k
      invariant forall j :: 0 <= j < k ==> Access(subject.observers[j].State()).Some?
      invariant forall j :: 0 <= j < k ==> fresh(subject.observers[j])
      invariant fresh(subject)
    {
      var sub := subject.Subscribe([]);
      k := k + 1;
    }
    ghost var live := Liveness(Snapshot(subject.observers));
    KeepAll(subject.observers, live);
    ghost var deliveredTo;
    clones, deliveredTo := subject.OnNext(item);
  }

  /** Two subscribers, then one push of `x`: both have received `x`. */
  method TwoSubscribersAfterPush<T, E>(x: T) returns (subject: Subject<T, E>, a: Cell<seq<Event<T, E>>>, b: Cell<seq<Event<T, E>>>)
    ensures fresh(subject) && fresh(a) && fresh(b) && a != b
    ensures subject.Valid() && !subject.consumed && subject.observers == [a, b]
    ensures a.State() == Fresh([Next(x)]) && b.State() == Fresh([Next(x)])
  {
    subject := new Subject<T, E>();
    a := subject.Subscribe([]);
    b := subject.Subscribe([]);
    ghost var snap := Snapshot(subject.observers);
    assert snap == [Fresh([]), Fresh([])];
    assert Liveness(snap) == [true, true];
    assert Keep([a, b], [true, true]) == [a, b];
    var clones, deliveredTo := subject.OnNext(x);
    var empty: seq<Event<T, E>> := [];
    assert empty + [Next(x)] == [Next(x)];
  }

  /**
    Releasing one subscription stops deliveries to that observer only: after the release
    the other subscriber still receives the next item, and the dead registration is pruned.
  */
  method ReleaseStopsDelivery<T, E>(x: T, y: T)
    returns (firstBefore: seq<Event<T, E>>, firstAfter: Option<seq<Event<T, E>>>,
             second: seq<Event<T, E>>, clones: nat, registrations: nat)
    ensures firstBefore == [Next(x)] && firstAfter == None
    ensures second == [Next(x), Next(y)]
    ensures clones == 1 && registrations == 1
  {
    var subject, a, b := TwoSubscribersAfterPush<T, E>(x);
    firstBefore := a.value.value;
    a.Release();
    assert subject.Valid();
    ghost var snap := Snapshot(subject.observers);
    assert snap == [Slot(false, None, true), Fresh([Next(x)])];
    assert Liveness(snap) == [false, true];
    assert Keep([a, b], [false, true]) == [b];
    ghost var deliveredTo;
    clones, deliveredTo := subject.OnNext(y);
    firstAfter := Access(a.State());
    second := b.value.value;
    registrations := |subject.observers|;
  }

  /** tests/subject.rs:28-42: a subscriber receives nothing upon subscription and one completion on `on_completed`. */
  method CompleteOneSubscriber<T, E>() returns (finals: seq<seq<Event<T, E>>>)
    ensures finals == [[Completed]]
  {
    var subject := new Subject<T, E>();
    var sub := subject.Subscribe([]);
    ghost var snap := Snapshot(subject.observers);
    assert snap == [Fresh([])];
    finals := subject.OnCompleted();
    assert snap[..0] == [] && Access(snap[0]) == Some([]);
    var empty: seq<Event<T, E>> := [];
    assert empty + [Completed] == [Completed];
  }

  /** tests/subject.rs:44-59: `on_error(41)` reaches the subscriber's error handler with 41. */
  method FailOneSubscriber() returns (finals: seq<seq<Event<int, int>>>)
    ensures finals == [[Error(41)]]
  {
    var subject := new Subject<int, int>();
    var sub := subject.Subscribe([]);
    ghost var snap := Snapshot(subject.observers);
    assert snap == [Fresh([])];
    finals := subject.OnError(41);
    assert snap[..0] == [] && Access(snap[0]) == Some([]);
    var empty: seq<Event<int, int>> := [];
    assert empty + [Error(41)] == [Error(41)];
  }
}

=== FILE: transform.dfy ===
/**
  The transform combinators (src/transform.rs): `map`, `map_error` and `continue_with`.

  Each combinator subscribes its source with an adapter observer that forwards to the
  downstream observer. `MapTrace`, `MapErrorTrace` and `ContinueWithTrace` give the calls
  that reach the downstream observer for the calls the source makes. The continuation's
  slot for the second subscription is a lifeline cell, and its adapter is a class.
*/
module Transform {
  import opened Wrappers
  import opened Protocol
  import opened Lifeline
  import opened Observables

  /** What `MapObserver` forwards for one call (src/transform.rs:29-39). */
  function MapEvent<T, U, E>(e: Event<T, E>, f: T -> U): (r: Event<U, E>)
    ensures r.Next? == e.Next? && r.Completed? == e.Completed? && r.Error? == e.Error?
    ensures e.Next? ==> r.item == f(e.item)
    ensures e.Error? ==> r.error == e.error
  {
    match e
    case Next(x) => Next(f(x))
    case Completed => Completed
    case Error(error) => Error(error)
  }

  /** The calls on the downstream observer of `map(f)` for the calls `t` of the source. */
  function MapTrace<T, U, E>(t: seq<Event<T, E>>, f: T -> U): (r: seq<Event<U, E>>)
    ensures |r| == |t|
    ensures forall i :: 0 <= i < |t| ==> r[i] == MapEvent(t[i], f)
  {
    if t == [] then [] else [MapEvent(t[0], f)] + MapTrace(t[1..], f)
  }

  /** `f` applied to every element of `xs`. */
  function MapSeq<T, U>(xs: seq<T>, f: T -> U): (ys: seq<U>)
    ensures |ys| == |xs| && forall i :: 0 <= i < |xs| ==> ys[i] == f(xs[i])
  {
    seq(|xs|, i requires 0 <= i < |xs| => f(xs[i]))
  }

  /**
    Map keeps the shape of the trace: the same terminal event at the same place, so a
    well-formed source gives a well-formed output and a completed or failed source gives
    the same outcome, with the error unchanged.
  */
  lemma MapKeepsShape<T, U, E>(t: seq<Event<T, E>>, f: T -> U)
    ensures WellFormed(MapTrace(t, f)) <==> WellFormed(t)
    ensures Open(MapTrace(t, f)) <==> Open(t)
    ensures CompletedTrace(MapTrace(t, f)) <==> CompletedTrace(t)
    ensures FailedTrace(t) ==> MapTrace(t, f)[|t| - 1] == Error(t[|t| - 1].error)
  {
    var r := MapTrace(t, f);
    forall i | 0 <= i < |t| ensures r[i].Next? == t[i].Next? && r[i].Completed? == t[i].Completed? {
      assert r[i] == MapEvent(t[i], f);
    }
  }

  /** The items of the mapped trace are `f` of the items of the source, in the same order. */
  lemma {:induction false} MapItems<T, U, E>(t: seq<Event<T, E>>, f: T -> U)
    ensures Items(MapTrace(t, f)) == MapSeq(Items(t), f)
  {
    if t != [] {
      MapItems(t[1..], f);
      assert MapTrace(t, f)[1..] == MapTrace(t[1..], f);
    }
  }

  /** A finite source `xs` under `map(f)` is the finite source `f(xs)`. */
  lemma MapOfFinite<T, U, E>(xs: seq<T>, f: T -> U)
    ensures MapTrace(FromItems<T, E>(xs), f) == FromItems<U, E>(MapSeq(xs, f))
  {
    var t := FromItems<T, E>(xs);
    assert t == Nexts(xs) + [Completed];
    var r := MapTrace(t, f);
    var want := FromItems<U, E>(MapSeq(xs, f));
    assert want == Nexts(MapSeq(xs, f)) + [Completed];
    forall i | 0 <= i < |r| ensures r[i] == want[i] {
      if i < |xs| {
        assert t[i] == Next(xs[i]);
      } else {
        assert t[i] == Completed;
      }
    }
  }

  /** Mapping twice is mapping once with the composed function (stream fusion). */
  lemma MapFusion<T, U, V, E>(t: seq<Event<T, E>>, f: T -> U, g: U -> V)
    ensures MapTrace(MapTrace(t, f), g) == MapTrace(t, x => g(f(x)))
  {
    var r := MapTrace(MapTrace(t, f), g);
    var s := MapTrace(t, x => g(f(x)));
    forall i | 0 <= i < |t| ensures r[i] == s[i] {
      match t[i]
      case Next(x) =>
      case Completed =>
      case Error(_) =>
    }
  }

  /** What `MapErrorObserver` forwards for one call (src/transform.rs:94-104). */
  function MapErrorEvent<T, E, F>(e: Event<T, E>, g: E -> F): (r: Event<T, F>)
    ensures r.Next? == e.Next? && r.Completed? == e.Completed? && r.Error? == e.Error?
    ensures e.Next? ==> r.item == e.item
    ensures e.Error? ==> r.error == g(e.error)
  {
    match e
    case Next(x) => Next(x)
    case Completed => Completed
    case Error(error) => Error(g(error))
  }

  /** The calls on the downstream observer of `map_error(g)` for the calls `t` of the source. */
  function MapErrorTrace<T, E, F>(t: seq<Event<T, E>>, g: E -> F): (r: seq<Event<T, F>>)
    ensures |r| == |t|
    ensures forall i :: 0 <= i < |t| ==> r[i] == MapErrorEvent(t[i], g)
  {
    if t == [] then [] else [MapErrorEvent(t[0], g)] + MapErrorTrace(t[1..], g)
  }

  /**
    `map_error(g)` forwards the items and the completion unchanged, and the error `e` as
    `g(e)`, at the same place; the mapping is applied at most once per subscription.
  */
  lemma {:induction false} MapErrorForwards<T, E, F>(t: seq<Event<T, E>>, g: E -> F)
    requires WellFormed(t)
    ensures WellFormed(MapErrorTrace(t, g))
    ensures Items(MapErrorTrace(t, g)) == Items(t)
    ensures CompletedTrace(MapErrorTrace(t, g)) <==> CompletedTrace(t)
    ensures FailedTrace(t) <==> FailedTrace(MapErrorTrace(t, g))
    ensures FailedTrace(t) ==> MapErrorTrace(t, g)[|t| - 1] == Error(g(t[|t| - 1].error))
  {
    var r := MapErrorTrace(t, g);
    if Open(t) {
      SameItems(r, t);
    } else {
      var n := |t| - 1;
      assert Open(t[..n]);
      SameItems(r[..n], t[..n]);
      assert r == r[..n] + [r[n]] && t == t[..n] + [t[n]];
      ItemsAppendTerminal(t[..n], t[n]);
      ItemsAppendTerminal(r[..n], r[n]);
    }
  }

  /** Two item-only traces with the same payloads have the same items, whatever their error types. */
  lemma SameItems<T, E, F>(r: seq<Event<T, F>>, t: seq<Event<T, E>>)
    requires Open(t) && |r| == |t|
    requires forall i :: 0 <= i < |t| ==> r[i] == Next(t[i].item)
    ensures Open(r) && Items(r) == Items(t)
  {
  }

  /**
    The calls on the downstream observer of `continue_with(next)`: the source's items and
    error are forwarded; its completion is replaced by the calls `next` makes.
  */
  function ContinueWithTrace<T, E>(a: seq<Event<T, E>>, b: seq<Event<T, E>>): (r: seq<Event<T, E>>)
    ensures Open(a) ==> r == a
    ensures |r| <= |a| + |b|
    decreases |a|
  {
    if a == [] then []
    else match a[0]
      case Next(x) => [Next(x)] + ContinueWithTrace(a[1..], b)
      case Completed => b
      case Error(error) => [Error(error)]
  }

  /** Items delivered before the continuation point are forwarded unchanged. */
  lemma {:induction false} ContinueWithAfterItems<T, E>(a: seq<Event<T, E>>, rest: seq<Event<T, E>>, b: seq<Event<T, E>>)
    requires Open(a)
    ensures ContinueWithTrace(a + rest, b) == a + ContinueWithTrace(rest, b)
    decreases |a|
  {
    if a != [] {
      assert (a + rest)[0] == a[0] && (a + rest)[1..] == a[1..] + rest;
      ContinueWithAfterItems(a[1..], rest, b);
    } else {
      assert a + rest == rest;
    }
  }

  /** One more call from the source, after items only: what the adapter passes on for it. */
  lemma ContinueWithStep<T, E>(a: seq<Event<T, E>>, e: Event<T, E>, b: seq<Event<T, E>>)
    requires Open(a)
    ensures ContinueWithTrace(a, b) == a && !CompletedTrace(a)
    ensures ContinueWithTrace(a + [e], b) == a + (if e.Completed? then b else [e])
    ensures CompletedTrace(a + [e]) <==> e.Completed?
    ensures Open(a + [e]) <==> e.Next?
  {
    ContinueWithAfterItems(a, [e], b);
  }

  /**
    The shape of `continue_with`: when the source completes, the items of the source
    followed by all the calls of `next`; otherwise exactly the source's calls, its error
    included. The result is well-formed when both are.
  */
  lemma ContinueWithShape<T, E>(a: seq<Event<T, E>>, b: seq<Event<T, E>>)
    requires WellFormed(a)
    ensures CompletedTrace(a) ==> ContinueWithTrace(a, b) == Nexts(Items(a)) + b
    ensures !CompletedTrace(a) ==> ContinueWithTrace(a, b) == a
    ensures WellFormed(b) ==> WellFormed(ContinueWithTrace(a, b))
  {
    WellFormedShape(a);
    if Open(a) {
      ContinueWithAfterItems(a, [], b);
      assert a + [] == a;
    } else {
      var n := |a| - 1;
      assert a == a[..n] + [a[n]];
      assert Open(a[..n]);
      ContinueWithAfterItems(a[..n], [a[n]], b);
      assert a[..n] == Nexts(Items(a));
    }
  }

  /** How often `next` is subscribed for the source calls `a`: once after completion, never otherwise. */
  function NextSubscriptions<T, E>(a: seq<Event<T, E>>): (n: nat)
    ensures n <= 1
    ensures WellFormed(a) ==> (n == 1 <==> CompletedTrace(a))
  {
    if CompletedTrace(Delivered(a)) then 1 else 0
  }

  /**
    `MapObservable::subscribe`: subscribes the source exactly once, with the mapping
    adapter, and returns the source's own subscription.
  */
  method MapSubscribe<T, U, E>(source: ColdSource<T, E>, f: T -> U) returns (sub: nat, received: seq<Event<U, E>>)
    modifies source
    ensures source.subscriptions == old(source.subscriptions) + 1 && sub == old(source.subscriptions)
    ensures received == MapTrace(source.trace, f)
  {
    var calls;
    sub, calls := source.Subscribe();
    received := MapTrace(calls, f);
  }

  /** `MapErrorObservable::subscribe`: subscribes the source exactly once and returns its subscription. */
  method MapErrorSubscribe<T, E, F>(source: ColdSource<T, E>, g: E -> F) returns (sub: nat, received: seq<Event<T, F>>)
    modifies source
    ensures source.subscriptions == old(source.subscriptions) + 1 && sub == old(source.subscriptions)
    ensures received == MapErrorTrace(source.trace, g)
  {
    var calls;
    sub, calls := source.Subscribe();
    received := MapErrorTrace(calls, g);
  }

  /** tests/transform.rs:13-20: `[2, 3, 5, 7, 11, 13]` under `x * 2`, read with `subscribe_next`. */
  method MapDoubles() returns (o: Outcome<int>)
    ensures o == Returned([4, 6, 10, 14, 22, 26])
  {
    var xs := [2, 3, 5, 7, 11, 13];
    var source := new ColdSource(FromItems<int, ()>(xs));
    var sub, received := MapSubscribe(source, x => x * 2);
    MapOfFinite<int, int, ()>(xs, x => x * 2);
    assert MapSeq(xs, x => x * 2) == [4, 6, 10, 14, 22, 26];
    o := SubscribeNext(received);
  }

  /**
    `ContinueWithObserver`: forwards items and errors to the wrapped observer and, on
    completion, subscribes `next` with that observer and stores the subscription in the
    slot, through the owner handle.
  */
  class ContinueWithObserver<T, E> {
    /** The calls made so far on the wrapped downstream observer. */
    var downstream: seq<Event<T, E>>
    const next: ColdSource<T, E>
    /** The owner handle of the slot for the subscription to `next`. */
    const subscription: Cell<Option<nat>>
    /** A terminal method has consumed the adapter. */
    var consumed: bool

    ghost predicate Valid()
      reads this
    {
      WellFormed(downstream) && (!consumed ==> Open(downstream))
    }

    constructor (next: ColdSource<T, E>, subscription: Cell<Option<nat>>)
      ensures Valid() && downstream == [] && !consumed
      ensures this.next == next && this.subscription == subscription
    {
      downstream := [];
      this.next := next;
      this.subscription := subscription;
      consumed := false;
    }

    method OnNext(x: T)
      requires Valid() && !consumed
      modifies this`downstream
      ensures Valid()
      ensures downstream == Deliver(old(downstream), Next(x))
    {
      downstream := downstream + [Next(x)];
    }

    /**
      Subscribes `next` exactly once with the downstream observer and stores that
      subscription in the slot if the combined subscription still holds its lifeline;
      otherwise the store does nothing.
    */
    method OnCompleted()
      requires Valid() && !consumed && subscription.ownerHeld && WellFormed(next.trace)
      modifies this`downstream, this`consumed, next, subscription
      ensures Valid() && consumed
      ensures next.subscriptions == old(next.subscriptions) + 1
      ensures downstream == old(downstream) + next.trace
      ensures subscription.State() == Mutated(old(subscription.State()), s => Some(old(next.subscriptions)))
    {
      var subsNext, calls := next.Subscribe();
      downstream := downstream + calls;
      subscription.WithMutValue(s => Some(subsNext));
      consumed := true;
    }

    method OnError(error: E)
      requires Valid() && !consumed
      modifies this`downstream, this`consumed
      ensures Valid() && consumed
      ensures downstream == Deliver(old(downstream), Error(error))
    {
      downstream := downstream + [Error(error)];
      consumed := true;
    }
  }

  /**
    `ContinueWithSubscription`: the source's subscription and the lifeline of the slot for
    the subscription to `next`. Dropping it releases that lifeline.
  */
  datatype ContinueWithSubscription = ContinueWithSubscription(subsSource: nat, subsNext: Cell<Option<nat>>)

  /**
    `ContinueWithObservable::subscribe` on a cold source: creates the slot holding `None`,
    subscribes only the source, whose calls then go to the adapter.
  */
  method ContinueWithSubscribe<T, E>(source: ColdSource<T, E>, next: ColdSource<T, E>)
    returns (sub: ContinueWithSubscription, observer: ContinueWithObserver<T, E>)
    requires source != next && WellFormed(source.trace) && WellFormed(next.trace)
    modifies source, next
    ensures fresh(observer) && fresh(sub.subsNext)
    ensures source.subscriptions == old(source.subscriptions) + 1 && sub.subsSource == old(source.subscriptions)
    ensures observer.downstream == ContinueWithTrace(source.trace, next.trace)
    ensures next.subscriptions == old(next.subscriptions) + NextSubscriptions(source.trace)
    ensures sub.subsNext.alive
    ensures sub.subsNext.value ==
      if CompletedTrace(source.trace) then Some(Some(old(next.subscriptions))) else Some(None)
  {
    var life := new Cell<Option<nat>>(None);
    observer := new ContinueWithObserver(next, life);
    var subsSource, calls := source.Subscribe();
    ghost var n0 := next.subscriptions;
    var i := 0;
    while i < |calls| && !observer.consumed
      invariant 0 <= i <= |calls| && calls == source.trace
      invariant observer.Valid() && observer.next == next && observer.subscription == life
      invariant fresh(observer) && fresh(life) && life.ownerHeld && life.alive
      invariant observer.consumed ==> i == |calls| && Terminated(calls)
      invariant !observer.consumed ==> Open(calls[..i])
      invariant observer.downstream == ContinueWithTrace(calls[..i], next.trace)
      invariant next.subscriptions == n0 + (if CompletedTrace(calls[..i]) then 1 else 0)
      invariant life.value == if CompletedTrace(calls[..i]) then Some(Some(n0)) else Some(None)
      invariant source.subscriptions == old(source.subscriptions) + 1
      decreases |calls| - i
    {
      assert calls[..i + 1] == calls[..i] + [calls[i]];
      assert !calls[i].Next? ==> i + 1 == |calls|;
      ContinueWithStep(calls[..i], calls[i], next.trace);
      match calls[i] {
        case Next(x) => observer.OnNext(x);
        case Completed => observer.OnCompleted();
        case Error(error) => observer.OnError(error);
      }
      i := i + 1;
    }
    assert calls[..i] == calls;
    sub := ContinueWithSubscription(subsSource, life);
  }

  /** Dropping the combined subscription releases the lifeline of the slot. */
  method ReleaseContinueWith(sub: ContinueWithSubscription)
    requires sub.subsNext.alive
    modifies sub.subsNext
    ensures sub.subsNext.State() == Released(old(sub.subsNext.State()))
  {
    sub.subsNext.Release();
  }

  /**
    `continue_with(a, b)` on two finite sources: the observer receives the items of `a`
    and then all of `b`'s calls, with `b` subscribed exactly once, if `a` completes; if `a`
    fails, `a`'s items and error, with `b` never subscribed.
  */
  method ContinueWithSources<T, E>(a: seq<Event<T, E>>, b: seq<Event<T, E>>)
    returns (received: seq<Event<T, E>>, nextSubscriptions: nat)
    requires WellFormed(a) && WellFormed(b)
    ensures CompletedTrace(a) ==> received == Nexts(Items(a)) + b && nextSubscriptions == 1
    ensures !CompletedTrace(a) ==> received == a && nextSubscriptions == 0
    ensures WellFormed(received)
  {
    var source := new ColdSource(a);
    var next := new ColdSource(b);
    var sub, observer := ContinueWithSubscribe(source, next);
    received := observer.downstream;
    nextSubscriptions := next.subscriptions;
    ContinueWithShape(a, b);
  }

  /**
    A completion that arrives after the combined subscription was dropped (a hot source):
    `next` is still subscribed once, but the store into the slot does nothing.
  */
  method CompletionAfterRelease<T, E>(b: seq<Event<T, E>>)
    returns (stored: Option<Option<nat>>, nextSubscriptions: nat, received: seq<Event<T, E>>)
    requires WellFormed(b)
    ensures stored == None && nextSubscriptions == 1 && received == b
  {
    var next := new ColdSource(b);
    var life := new Cell<Option<nat>>(None);
    var observer := new ContinueWithObserver(next, life);
    life.Release();
    observer.OnCompleted();
    stored := Access(life.State());
    nextSubscriptions := next.subscriptions;
    received := observer.downstream;
  }
}

=== FILE: wrappers.dfy ===
/** Rust's `Option` and `Result`, as they appear in the callback arguments and in the lifeline slot. */
module Wrappers {

  datatype Option<+T> = None | Some(value: T)

  datatype Result<+T, +E> = Ok(value: T) | Err(error: E)
}
